=== FILE: README.md ===
# poll — verified model of the execution loop and the circuit breaker

`poll` is a small Python library with three resilience wrappers around a
fallible function `f`:

- `poll` calls `f` until a condition `until` holds on its result, or a
  timeout passes.
- `retry` calls `f` again while it raises one of the listed exception
  classes, up to `times` attempts.
- `circuitbreaker` stops calling `f` once it has failed `threshold` times
  within `reset_timeout` seconds. It refuses calls until `reset_timeout` has
  passed since the circuit broke. Then it lets a probe through: the probe's
  failure re-opens the circuit at once, and its success closes it.

`poll` and `retry` are both thin settings of one loop, `exec_`. The circuit
breaker is a wrapper around a failure counter, `_FailureCounter`. This
project models these two cores as pure Dafny functions over explicit
inputs, and proves their properties.

- **Time** is `real`.
  - Every counter operation takes the current time `now` in place of
    `time.perf_counter()`.
  - The wrapper takes a `start` time (when the state is read) and a
    `finish` time (when the outcome is recorded).
  - `exec_`'s clock is the time elapsed since the loop started. It advances
    by each call's duration and by each `interval` sleep.
- **`f`** is a finite trace of attempts. Each attempt is a result or an
  exception, plus the time the call took.
- **Exceptions** are an abstract type `E`, and classes an abstract type
  `K`. `isinstance` is a caller-supplied relation `isInstance(e, k)`.
  - The `ex` argument is a single class or an iterable of classes. It is
    normalised to a sequence.
  - The empty sequence (`poll`'s `()`) matches nothing.
- **Callbacks** `on_error(e, count)` become an output log of `Notice(e, index)`; they are assumed to return.
- **`until`** returns an `Outcome<bool, E>`, so that a condition that raises
  is modelled. Its exception propagates and is not reported to `on_error`.
- **`times` and `timeout`** are `Option`s, with `None` standing for `float("inf")`.

Modules follow the source:

| module | what it covers |
|---|---|
| `Results` | `Option` and `Outcome` |
| `Classifier` | `ex` normalisation and `isinstance` |
| `FailureWindow` | the deque of failure times and its eviction loop |
| `FailureCounter` | `_FailureCounter` |
| `CircuitBreaker` | `circuitbreaker`'s `wrapper` |
| `Engine` | `exec_`, `poll_` and `retry_` |
| `Scenarios` | the repository's test cases, replayed on the model |

Notes on the code and its tests:

- In the half-broken state the code lets every call through, not just one
  probe. `wrapper` refuses only in the "broken" state. The model follows
  the code.
- `add_failure` re-opens a half-broken circuit on a single matched failure,
  whatever the threshold. A success in the half-broken state forgets every
  failure. A success in the ok state keeps the recent failures.
- `test/poll_tests.py:37-53` expects three calls and a `TimeoutError`. Under
  `exec_` these cannot happen together:
  - `f` returns 1, 2, 3, … and `until` is `x == 3`, so a third call returns 3
    and is accepted (`Scenarios.PollTimeoutBeforeThirdCall`).
  - With calls that take no time, two sleeps of 0.0045 stay within the 0.01
    timeout, and the third result is returned
    (`Scenarios.PollNotTrueInTimeReturnsThird`).
- The half-broken success case in `test/circuit_breaker_tests.py:164-192`
  never breaks the circuit. `f` raises only on its first two calls, so the
  third call already succeeds at time 0.

## Model

| member | source | states |
|---|---|---|
| Classifier.Normalize | src/poll/__init__.py:159-162 | a single class becomes a one-class tuple of that class; an iterable becomes the tuple of its classes, in order |
| Classifier.Matches | src/poll/__init__.py:179 | `isinstance(e, exs)` holds exactly when `e` is an instance of some class in the tuple; the empty tuple matches nothing |
| Classifier.NormalizeMatches | src/poll/__init__.py:268-271 | a single class is matched as itself; an iterable is matched when any class in it matches |
| FailureWindow.Evict | src/poll/__init__.py:227-231 | eviction pops only entries older than the cutoff, the first survivor is not older, and the window never grows |
| FailureWindow.PopStale | src/poll/__init__.py:228-230 | the `while` loop that pops the front computes exactly the eviction, leaving a window whose front is recent |
| FailureWindow.EvictIsSuffix | src/poll/__init__.py:229-230 | eviction removes only a prefix; the survivors are the window's last entries, unchanged and in order |
| FailureWindow.EvictAllStale | src/poll/__init__.py:229-230 | a window of stale failures is emptied |
| FailureWindow.EvictNothingRecent | src/poll/__init__.py:229 | a window whose oldest failure is recent is left alone |
| FailureWindow.EvictSortedIsRecent | src/poll/__init__.py:227-231 | on a time-ordered window, eviction keeps exactly the recent failures, in order |
| FailureWindow.EvictSorted | src/poll/__init__.py:227-231 | eviction keeps a time-ordered window time-ordered, and every survivor is recent and was there before |
| FailureWindow.EvictIdempotent | src/poll/__init__.py:227-231 | evicting twice at the same time is the same as evicting once |
| FailureWindow.EvictLaterCutoff | src/poll/__init__.py:227-231 | evicting at an earlier time and then at a later one equals evicting once at the later one |
| FailureCounter.New | src/poll/__init__.py:190-194 | a new counter has no failures, is not broken, and keeps its threshold and timeout |
| FailureCounter.TimeRemaining | src/poll/__init__.py:215-219 | the time remaining is never negative; it is 0 when not broken or when half-broken, and otherwise `timeout - (now - broken_time)`, at most `timeout` |
| FailureCounter.IsHalfBroken | src/poll/__init__.py:221-222 | half-broken only with a broken time, and then exactly when `timeout` has passed since it |
| FailureCounter.HalfBrokenPersists | src/poll/__init__.py:221-222 | once half-broken, a counter stays half-broken as the clock advances, and it is never half-broken before `timeout` has passed since breaking |
| FailureCounter.StateAt | src/poll/__init__.py:196-201 | ok iff no broken time; half-broken iff `timeout` has passed since breaking; broken iff time remains |
| FailureCounter.UpdateFailures | src/poll/__init__.py:227-231 | only the window changes and it never grows. Every popped entry was older than `now - timeout`, and the oldest survivor is not |
| FailureCounter.UpdateFailuresKeepsTail | src/poll/__init__.py:229-230 | the survivors are the window's last entries, unchanged and in order: only the front is popped |
| FailureCounter.AddFailure | src/poll/__init__.py:203-207 | the window is evicted and `now` appended; the circuit breaks at `now` iff the window reaches the threshold or the counter was half-broken, and otherwise the broken time is unchanged |
| FailureCounter.AddSuccess | src/poll/__init__.py:209-213 | the circuit is closed for good; the window is emptied if half-broken and only evicted otherwise |
| FailureCounter.AddFailureValid | src/poll/__init__.py:203-207 | on a monotonic clock a failure keeps the window in time order, and every entry lies in the last `timeout` seconds |
| FailureCounter.AddSuccessValid | src/poll/__init__.py:209-213 | on a monotonic clock a success keeps the counter in time order, and every entry lies in the last `timeout` seconds |
| FailureCounter.OkSuccessKeepsRecentFailures | src/poll/__init__.py:209-213 | a success when not half-broken keeps exactly the recent failures |
| FailureCounter.TimeRemainingNonIncreasing | src/poll/__init__.py:215-219 | the time remaining never grows as the clock advances, and shrinks strictly while broken |
| FailureCounter.TimeRemainingReachesZero | src/poll/__init__.py:215-222 | once `timeout` has passed since breaking, no time remains and the state is half-broken |
| FailureCounter.HalfBrokenFailureReopens | src/poll/__init__.py:203-207 | one failure when half-broken re-opens the circuit for a full `timeout`, whatever the threshold |
| FailureCounter.HalfBrokenSuccessCloses | src/poll/__init__.py:209-213 | a success when half-broken empties the window and closes the circuit |
| FailureCounter.SpacedFailuresNeverTrip | src/poll/__init__.py:131-135 | failures spaced more than `timeout` apart never break a closed circuit with a threshold of two or more; each leaks out before the next arrives |
| FailureCounter.BurstTrips | src/poll/__init__.py:131-135 | a burst of failures within `timeout` of the last is kept whole, and breaks the circuit at the last failure once it reaches the threshold |
| CircuitBreaker.Decorate | src/poll/__init__.py:159-165 | decorating builds the normalised exception tuple and a fresh counter whose one timeout is `reset_timeout` |
| CircuitBreaker.Wrapper | src/poll/__init__.py:168-183 | a call is refused, without invoking `f`, iff the state is broken, and it carries the time remaining. Otherwise `f` is invoked once. An exception is reported and re-raised unchanged, and is counted as a failure iff it matches. A result is returned and recorded as a success |
| CircuitBreaker.Replay | src/poll/__init__.py:164-183 | a sequence of calls through one decorated function gives one response per call and keeps the exception tuple and instance test |
| CircuitBreaker.ReplayConcat | src/poll/__init__.py:164-183 | all calls share one counter: replaying two sequences one after the other equals replaying their concatenation, the second starting from the counter the first left |
| CircuitBreaker.MatchedFailuresAccumulate | src/poll/__init__.py:175-181 | up to `threshold` matched failures, none later than `timeout` after the first, are all invoked and re-raised and all stay in the window. The circuit breaks at the last of them iff there are `threshold` of them |
| CircuitBreaker.ThresholdFailuresDenyNextCall | src/poll/__init__.py:131-142 | `threshold` matched failures within `reset_timeout` break the circuit. A call less than `reset_timeout` after the last failure is refused without invoking `f`, with the exact time remaining |
| Engine.Exec | src/poll/__init__.py:268-293 | from a zero count and a zero clock: at least one call on a non-empty trace and never more than it has; the run stops short of the trace's end only by returning, raising or timing out; every attempt but the last was retried within the timeout; the last explains the ending; `on_error` sees exactly the exceptions of `f`, numbered 0, 1, 2, … |
| Engine.Try | src/poll/__init__.py:276-285 | an exception is reported with the current count before classification; the loop goes on iff the exception matches and stays below `times`, or the result is rejected by `until` without raising; otherwise the exception or the accepted result ends the run |
| Engine.Loop | src/poll/__init__.py:273-293 | the loop makes at least one call on a non-empty trace, never more than the trace has, and logs at most one callback per call |
| Engine.LoopNotices | src/poll/__init__.py:278-280 | `on_error` is called once per exception of `f`, in order, with indices 0, 1, 2, … counting the earlier exceptions, including the final re-raised one |
| Engine.LoopPrefix | src/poll/__init__.py:275-287 | every attempt before the last one called was retried, and the clock after its sleep had not passed the timeout |
| Engine.LoopEnding | src/poll/__init__.py:275-293 | the last attempt explains the ending. A result is returned only if `until` accepted it. An exception propagates only if it was not retried, or `until` raised it. A timeout comes only after a retried attempt whose sleep passed the deadline, and carries the exception count |
| Engine.UnmatchedRaisesAtOnce | src/poll/__init__.py:279-282 | an unmatched exception propagates from the first call, after one callback |
| Engine.AlwaysFailingCalledTimes | src/poll/__init__.py:279-282 | an `f` that always raises a matched exception is called exactly `times` times; the last exception itself propagates, after callbacks numbered 0 to `times - 1` |
| Engine.SleepsIsProduct | src/poll/__init__.py:286 | `n` sleeps of `interval` take `n * interval` |
| Engine.ElapsedOfInstantCalls | src/poll/__init__.py:286-287 | with calls that take no time, the clock after `n` attempts is `n` sleeps |
| Engine.Poll | src/poll/__init__.py:35-55 | with an empty exception tuple, only results rejected by `until` are retried. Any exception of `f` propagates on its first call, with one callback numbered 0. A result is returned iff `until` accepted it. A timeout carries a count of 0, comes after `until` rejected every result, and only once the clock after the last sleep has passed the timeout. Every attempt before the last was retried with the clock still within the timeout, and the run stops short of the trace's end only by returning, raising or timing out. The last attempt explains the ending: an exception propagates only if the last call of `f` raised it or `until` raised it on the last result, and the trace runs out only after a rejected result whose sleep stayed within the timeout |
| Engine.PollRetriesValuesOnly | src/poll/__init__.py:55 | with nothing to catch, every attempt before the last was a result that `until` rejected |
| Engine.Retry | src/poll/__init__.py:93-123 | with `until` always true and no timeout, a retry never times out, and it stops short of the trace's end only by returning or raising. Every attempt before the last raised a matched exception while the exceptions so far, that one included, were still below `times`, and the last attempt explains the ending. The first result is returned. An exception propagates only from the last attempt, and only if it is unmatched or the exceptions so far have reached `times`. Callbacks see every exception, numbered 0, 1, 2, … |
| Engine.RetryRecovers | src/poll/__init__.py:276-285 | `k` matched exceptions followed by a result, with `times` above `k`: the result is returned after `k + 1` calls, and `on_error` sees the `k` exceptions numbered 0 to `k - 1` |
| Engine.RetryRetriesErrorsOnly | src/poll/__init__.py:123 | when `until` always holds, only matched exceptions are retried |
| Engine.PollTimeoutAttempts | src/poll/__init__.py:286-293 | a poll of instant calls that `until` always rejects times out with count 0. It stops at the first attempt whose sleep takes the clock past the timeout: `calls` sleeps pass the timeout and `calls - 1` do not |
| Scenarios.RetryUntilExceptionGoesAway | test/retry_tests.py:34-64 | two `ValueError`s and then 3: three calls, result 3, callbacks 0 and 1 |
| Scenarios.RetryTooManyTimes | test/retry_tests.py:67-84 | an always-failing function is called three times and the third exception object propagates |
| Scenarios.RetryUnexpectedException | test/retry_tests.py:142-159 | an unlisted `TypeError` propagates after one call, and `on_error` still sees it |
| Scenarios.RetrySeveralClasses | test/retry_tests.py:107-139 | with `[ValueError, IndexError]` both are retried and the third call's result is returned |
| Scenarios.PollTrueAfterAFewTries | test/poll_tests.py:21-34 | `until` true on the third result: three calls, no callbacks |
| Scenarios.PollNotTrueInTimeReturnsThird | test/poll_tests.py:37-53 | with instant calls, two sleeps of 0.0045 fit in the 0.01 timeout and the third result, 3, is returned |
| Scenarios.PollTimeoutBeforeThirdCall | test/poll_tests.py:37-53 | for any call durations, a poll of 1, 2, 3, … for `x == 3` that times out made fewer than three calls |
| Scenarios.PollFunctionRaises | test/poll_tests.py:56-68 | an exception of the polled function propagates after one call |
| Scenarios.PollConditionRaises | test/poll_tests.py:71-86 | an exception of `until` propagates, with no callback |
| Scenarios.OneFailure | test/circuit_breaker_tests.py:36-60 | a first matched failure is re-raised and recorded without breaking the circuit |
| Scenarios.ThreeFailuresBreak | test/circuit_breaker_tests.py:90-104 | the third failure at time 0 is still re-raised, and breaks the circuit at 0 |
| Scenarios.BrokenCircuitRefuses | test/circuit_breaker_tests.py:107-133 | after three failures at 0, a call at 0.5 is refused without invoking `f`, with 0.5 remaining |
| Scenarios.TwoFailuresThenSuccess | test/circuit_breaker_tests.py:164-192 | two failures and a success at 0 leave both failures in the window and the circuit closed |
| Scenarios.SuccessKeepsCircuitClosed | test/circuit_breaker_tests.py:164-192 | after that, a call at 1.1 goes through and returns its result |
| Scenarios.LeakyBucket | test/circuit_breaker_tests.py:136-161 | failures at 0 and 0.5, then two at 1.1: the failure at 0 has leaked out, so the second failure at 1.1 breaks the circuit and the next call is refused |
| Scenarios.ProbeReopens | test/circuit_breaker_tests.py:195-221 | after three failures at 0, the probe at 1.1 is invoked and its exception re-raised; the window holds only the probe and the circuit breaks again at 1.1 |
| Scenarios.HalfBrokenProbeFails | test/circuit_breaker_tests.py:224-250 | after the failed probe, the next call at 1.1 is refused without invoking `f`, with a full second remaining |

## Left out

- Decorators (`poll`, `retry`, the decorator returned by `circuitbreaker`), `functools.wraps` and argument forwarding. This is call plumbing: every attempt gets the same arguments.
- `_call_with_correct_number_of_args`, which uses arity reflection. `exec_`'s callback is always given `(exception, index)`, and the circuit breaker's only its exception (`Call.notified`).
- `time.perf_counter` and `time.sleep`. Times are explicit inputs, and a sleep advances the clock by exactly `interval`. `time.sleep` raising on a negative `interval` is not modelled.
- Floating-point time. All time arithmetic is exact `real` arithmetic.
- Error messages, `print` in `_update_failures`, and the message text of `TimeoutError` and `CircuitBrokenError`. `TimedOut` keeps only the exception count the message reports, and `CircuitBroken` only `time_remaining`.
- CircuitBreaker.Wrapper: reads the clock once at `start` for both `state()` and `time_remaining()`. The code reads it once for each.
- FailureCounter.AddFailure: uses one `now` throughout. The code reads the clock up to four times: for eviction (line 228), the appended time (205), the half-broken test (225, via 206) and the broken time (207).
- FailureCounter.AddSuccess: uses one `now` throughout. The code reads the clock twice: for the half-broken test (225, via 210) and for eviction (228).
- CircuitBreaker.Wrapper: assumes `on_error` returns. The callback runs inside the `except` block, so if it raises, its exception propagates in place of `f`'s, and a matched failure is then not counted.
- Engine.Try: assumes `on_error` returns. If it raises, its exception ends `exec_` at once, before the count is incremented, whatever `times`, `ex` or the timeout say.
- Thread safety. The code has no locking.
- The Python class hierarchy and `collections.Iterable`. Classes are an abstract relation; an argument is either one class or a sequence of classes. `collections.Iterable` no longer exists in recent Python versions, where this check raises instead.
- `times` as a float. It is an optional integer in the model.
- Engine.Loop: `f` is a finite trace. A run that uses up the trace while the loop would call `f` again ends in `TraceEnded`, which has no counterpart in the code.
- Engine.AlwaysFailingCalledTimes: stated without a timeout, as `retry_` calls the loop.
- Engine.PollTimeoutAttempts: stated for calls that take no time. `Engine.LoopEnding` and `Engine.LoopPrefix` cover arbitrary durations.
- CircuitBreaker.MatchedFailuresAccumulate: stated for failures within `timeout` of the first on a fresh counter. `FailureCounter.BurstTrips` and `FailureCounter.SpacedFailuresNeverTrip` cover windows that already hold failures.
- setup.py: packaging only.

=== FILE: breaker.dfy ===
/** The wrapper built by `circuitbreaker`: consult the failure counter
    before calling `f`, refuse the call while the circuit is broken, and
    report the call's outcome to the counter afterwards. */
module CircuitBreaker {
  import opened Results
  import opened FailureWindow
  import opened FailureCounter
  import Classifier

  /** A decorated function's breaker: the normalised exception tuple, the
      instance test for it, and the failure counter shared by all calls. */
  datatype Breaker<!E, !K> = Breaker(exs: seq<K>, isInstance: (E, K) -> bool, counter: Counter)

  /** What a call through the wrapper does for its caller. */
  datatype Response<V, E> = CircuitBroken(timeRemaining: real) | Passed(value: V) | Reraised(error: E)

  /** One call through the wrapper: the counter afterwards, the response,
      whether `f` was invoked, and the exception passed to `on_error`. */
  datatype Call<V, E> = Call(counter: Counter, response: Response<V, E>, invoked: bool, notified: Option<E>)

  /** `circuitbreaker(ex, threshold, reset_timeout)` applied to a function:
      a fresh counter whose one timeout is `reset_timeout`. */
  function Decorate<E, K>(ex: Classifier.ExSpec<K>, isInstance: (E, K) -> bool, threshold: int, resetTimeout: real): (b: Breaker<E, K>)
    ensures b.counter.failures == [] && b.counter.brokenTime == None
    ensures b.counter.threshold == threshold && b.counter.timeout == resetTimeout
    ensures b.exs == Classifier.Normalize(ex) && b.isInstance == isInstance
  {
    Breaker(Classifier.Normalize(ex), isInstance, New(threshold, resetTimeout))
  }

  /** `wrapper`: the state is read at `start`; `f` (whose outcome would be
      `outcome`) is invoked only if the circuit is not broken, and its
      failure or success is recorded at `finish`.  Every exception of `f`
      goes to `on_error` and is re-raised unchanged; only matched ones count
      as failures. */
  function Wrapper<V, E, K>(b: Breaker<E, K>, outcome: Outcome<V, E>, start: real, finish: real): (r: Call<V, E>)
    ensures r.response.CircuitBroken? <==> StateAt(b.counter, start) == Broken
    ensures r.response.CircuitBroken? <==> TimeRemaining(b.counter, start) > 0.0
    ensures r.response.CircuitBroken? ==>
      && r.response.timeRemaining == TimeRemaining(b.counter, start)
      && !r.invoked && r.counter == b.counter && r.notified == None
    ensures !r.response.CircuitBroken? ==> r.invoked
    ensures r.invoked && outcome.Raise? ==>
      && r.response == Reraised(outcome.error)
      && r.notified == Some(outcome.error)
      && (Classifier.Matches(b.isInstance, outcome.error, b.exs) ==> r.counter == AddFailure(b.counter, finish))
      && (!Classifier.Matches(b.isInstance, outcome.error, b.exs) ==> r.counter == b.counter)
    ensures r.invoked && outcome.Value? ==>
      r.response == Passed(outcome.value) && r.notified == None && r.counter == AddSuccess(b.counter, finish)
  {
    if StateAt(b.counter, start) == Broken then
      Call(b.counter, CircuitBroken(TimeRemaining(b.counter, start)), false, None)
    else
      match outcome
      case Raise(e) =>
        var c := if Classifier.Matches(b.isInstance, e, b.exs) then AddFailure(b.counter, finish) else b.counter;
        Call(c, Reraised(e), true, Some(e))
      case Value(v) => Call(AddSuccess(b.counter, finish), Passed(v), true, None)
  }

  /** A call whose `f` does not block: read and record at the same time. */
  datatype Request<V, E> = Request(outcome: Outcome<V, E>, at: real)

  /** A sequence of calls through one breaker, oldest first: the breaker
      afterwards and every call's response. */
  function Replay<V, E, K>(b: Breaker<E, K>, reqs: seq<Request<V, E>>): (r: (Breaker<E, K>, seq<Response<V, E>>))
    ensures |r.1| == |reqs|
    ensures r.0.exs == b.exs && r.0.isInstance == b.isInstance
    decreases |reqs|
  {
    if reqs == [] then (b, [])
    else
      var before := Replay(b, reqs[..|reqs| - 1]);
      var req := reqs[|reqs| - 1];
      var call := Wrapper(before.0, req.outcome, req.at, req.at);
      (before.0.(counter := call.counter), before.1 + [call.response])
  }

  /** One more request on top of a replayed sequence: the new call sees the
      breaker the earlier ones left behind. */
  lemma ReplayAppend<V, E, K>(b: Breaker<E, K>, reqs: seq<Request<V, E>>, req: Request<V, E>)
    ensures var before := Replay(b, reqs);
      var call := Wrapper(before.0, req.outcome, req.at, req.at);
      Replay(b, reqs + [req]) == (before.0.(counter := call.counter), before.1 + [call.response])
  {
    assert (reqs + [req])[..|reqs|] == reqs;
  }

  /** Replaying two sequences one after the other is replaying their
      concatenation: the second sequence starts from the counter the first
      one left, and the responses follow each other. */
  lemma {:induction false} ReplayConcat<V, E, K>(b: Breaker<E, K>, xs: seq<Request<V, E>>, ys: seq<Request<V, E>>)
    ensures var mid := Replay(b, xs);
      var end := Replay(mid.0, ys);
      Replay(b, xs + ys) == (end.0, mid.1 + end.1)
    decreases |ys|
  {
    var mid := Replay(b, xs);
    if ys == [] {
      assert xs + ys == xs;
      assert mid.1 + Replay(mid.0, ys).1 == mid.1;
    } else {
      var init := ys[..|ys| - 1];
      var last := ys[|ys| - 1];
      ReplayConcat(b, xs, init);
      assert xs + ys == (xs + init) + [last];
      ReplayAppend(b, xs + init, last);
      var before := Replay(mid.0, init);
      var call := Wrapper(before.0, last.outcome, last.at, last.at);
      assert Replay(mid.0, ys) == (before.0.(counter := call.counter), before.1 + [call.response]);
      assert mid.1 + (before.1 + [call.response]) == (mid.1 + before.1) + [call.response];
    }
  }

  /** The times of a sequence of requests. */
  function Times<V, E>(reqs: seq<Request<V, E>>): (ts: seq<real>)
    ensures |ts| == |reqs| && forall i :: 0 <= i < |reqs| ==> ts[i] == reqs[i].at
  {
    seq(|reqs|, i requires 0 <= i < |reqs| => reqs[i].at)
  }

  /** The responses to a sequence of requests none of which is refused:
      each result passed through, each exception re-raised. */
  function Admitted<V, E>(reqs: seq<Request<V, E>>): (rs: seq<Response<V, E>>)
    ensures |rs| == |reqs|
    decreases |reqs|
  {
    if reqs == [] then []
    else
      var response := match reqs[|reqs| - 1].outcome
        case Raise(e) => Reraised(e)
        case Value(v) => Passed(v);
      Admitted(reqs[..|reqs| - 1]) + [response]
  }

  /** Calls that all fail with a matched exception, none later than
      `timeout` after the first, on a closed breaker with an empty window:
      every call is invoked and re-raised, none is evicted, and the circuit
      breaks at the last call exactly when their number reaches the
      threshold. */
  lemma {:induction false} MatchedFailuresAccumulate<V, E, K>(b: Breaker<E, K>, reqs: seq<Request<V, E>>)
    requires b.counter.failures == [] && b.counter.brokenTime == None
    requires |reqs| <= b.counter.threshold
    requires forall i :: 0 <= i < |reqs| ==>
      reqs[i].outcome.Raise? && Classifier.Matches(b.isInstance, reqs[i].outcome.error, b.exs)
    requires forall i :: 0 <= i < |reqs| ==> reqs[i].at <= reqs[0].at + b.counter.timeout
    ensures var c := Replay(b, reqs).0.counter;
      && c.threshold == b.counter.threshold && c.timeout == b.counter.timeout
      && c.failures == Times(reqs)
      && c.brokenTime == (if reqs != [] && |reqs| == b.counter.threshold then Some(reqs[|reqs| - 1].at) else None)
    ensures Replay(b, reqs).1 == Admitted(reqs)
    decreases |reqs|
  {
    if reqs != [] {
      var prefix := reqs[..|reqs| - 1];
      assert prefix != [] ==> prefix[0] == reqs[0];
      MatchedFailuresAccumulate(b, prefix);
      AccumulateStep(b, reqs);
    }
  }

  /** The inductive step of `MatchedFailuresAccumulate`: one more matched
      failure, recent relative to the oldest one recorded. */
  lemma AccumulateStep<V, E, K>(b: Breaker<E, K>, reqs: seq<Request<V, E>>)
    requires reqs != []
    requires var c := Replay(b, reqs[..|reqs| - 1]).0.counter;
      && c.failures == Times(reqs[..|reqs| - 1]) && c.brokenTime == None
      && c.threshold == b.counter.threshold && c.timeout == b.counter.timeout
    requires Replay(b, reqs[..|reqs| - 1]).1 == Admitted(reqs[..|reqs| - 1])
    requires |reqs| <= b.counter.threshold
    requires var last := reqs[|reqs| - 1];
      last.outcome.Raise? && Classifier.Matches(b.isInstance, last.outcome.error, b.exs)
    requires reqs[0].at >= reqs[|reqs| - 1].at - b.counter.timeout
    ensures var c := Replay(b, reqs).0.counter;
      && c.threshold == b.counter.threshold && c.timeout == b.counter.timeout
      && c.failures == Times(reqs)
      && c.brokenTime == (if |reqs| == b.counter.threshold then Some(reqs[|reqs| - 1].at) else None)
    ensures Replay(b, reqs).1 == Admitted(reqs)
  {
    var prefix := reqs[..|reqs| - 1];
    var last := reqs[|reqs| - 1];
    assert prefix + [last] == reqs;
    FreshFailureStep(Replay(b, prefix).0.counter, last.at);
    TimesAppend(prefix, last);
  }

  lemma TimesAppend<V, E>(reqs: seq<Request<V, E>>, req: Request<V, E>)
    ensures Times(reqs + [req]) == Times(reqs) + [req.at]
  {
    assert forall i :: 0 <= i < |reqs| ==> (reqs + [req])[i] == reqs[i];
  }

  /** A matched failure on a closed counter whose oldest failure is still
      recent: it is recorded without eviction, and breaks the circuit when it
      reaches the threshold. */
  lemma FreshFailureStep(c: Counter, at: real)
    requires c.brokenTime == None && |c.failures| < c.threshold
    requires c.failures == [] || c.failures[0] >= at - c.timeout
    ensures StateAt(c, at) == Ok
    ensures AddFailure(c, at)
      == c.(failures := c.failures + [at], brokenTime := if |c.failures| + 1 == c.threshold then Some(at) else None)
  {
    EvictNothingRecent(c.failures, at - c.timeout);
  }

  /** The circuit breaker's defining promise: `threshold` matched failures
      within `reset_timeout` break the circuit, and a further call less than
      `reset_timeout` after the last failure is refused without invoking
      `f`, with the time remaining until the circuit half-opens. */
  lemma ThresholdFailuresDenyNextCall<V, E, K>(b: Breaker<E, K>, reqs: seq<Request<V, E>>, next: Outcome<V, E>, at: real)
    requires b.counter.failures == [] && b.counter.brokenTime == None
    requires |reqs| == b.counter.threshold >= 1
    requires forall i :: 0 <= i < |reqs| ==>
      reqs[i].outcome.Raise? && Classifier.Matches(b.isInstance, reqs[i].outcome.error, b.exs)
    requires forall i :: 0 <= i < |reqs| ==> reqs[i].at <= reqs[0].at + b.counter.timeout
    requires reqs[|reqs| - 1].at <= at < reqs[|reqs| - 1].at + b.counter.timeout
    ensures var after := Replay(b, reqs).0;
      var call := Wrapper(after, next, at, at);
      && call.response == CircuitBroken(b.counter.timeout - (at - reqs[|reqs| - 1].at))
      && !call.invoked
  {
    MatchedFailuresAccumulate(b, reqs);
  }
}

=== FILE: classifier.dfy ===
/** Exception classification: Python's `isinstance(e, exs)` over a tuple of
    exception classes.  Classes are an abstract kind type `K`; the class
    hierarchy is the relation `isInstance(e, k)` ("e is an instance of k or
    of a sub-kind of k"), supplied by the caller. */
module Classifier {

  /** The `ex` argument of `retry`, `exec_` and `circuitbreaker`: a single
      exception class, or an iterable of classes. */
  datatype ExSpec<K> = Single(kind: K) | Several(kinds: seq<K>)

  /** The tuple `exs` built from `ex`: an iterable becomes the tuple of its
      elements, anything else a one-element tuple. */
  function Normalize<K>(ex: ExSpec<K>): (exs: seq<K>)
    ensures ex.Single? ==> |exs| == 1 && exs[0] == ex.kind
    ensures ex.Several? ==> |exs| == |ex.kinds| && forall i :: 0 <= i < |exs| ==> exs[i] == ex.kinds[i]
  {
    match ex
    case Single(k) => [k]
    case Several(ks) => ks
  }

  /** `isinstance(e, exs)` for a tuple `exs`: true iff `e` is an instance of
      some class listed in `exs`.  The empty tuple matches nothing. */
  function Matches<E, K>(isInstance: (E, K) -> bool, e: E, exs: seq<K>): (b: bool)
    ensures b <==> exists i :: 0 <= i < |exs| && isInstance(e, exs[i])
    ensures exs == [] ==> !b
  {
    if |exs| == 0 then false
    else isInstance(e, exs[0]) || Matches(isInstance, e, exs[1..])
  }

  /** Normalising a single class gives exactly that class's instance test,
      and normalising an iterable keeps every class in it. */
  lemma NormalizeMatches<E, K>(isInstance: (E, K) -> bool, e: E, ex: ExSpec<K>)
    ensures ex.Single? ==> (Matches(isInstance, e, Normalize(ex)) <==> isInstance(e, ex.kind))
    ensures ex.Several? ==>
      (Matches(isInstance, e, Normalize(ex)) <==> exists i :: 0 <= i < |ex.kinds| && isInstance(e, ex.kinds[i]))
  {
  }
}

=== FILE: counter.dfy ===
/** `_FailureCounter`: the circuit breaker's failure counter.  It stores a
    window of failure timestamps and a nullable broken time; the states ok,
    broken and halfbroken are derived from the broken time and the clock.
    Every operation takes the current time `now` explicitly. */
module FailureCounter {
  import opened Results
  import opened FailureWindow

  /** `timeout` plays two roles: how long a failure stays in the window, and
      how long a broken circuit stays broken. */
  datatype Counter = Counter(threshold: int, timeout: real, failures: seq<real>, brokenTime: Option<real>)

  datatype State = Ok | Broken | HalfBroken

  /** A fresh counter: no failures, not broken. */
  function New(threshold: int, timeout: real): (c: Counter)
    ensures c.failures == [] && c.brokenTime == None
    ensures c.threshold == threshold && c.timeout == timeout
  {
    Counter(threshold, timeout, [], None)
  }

  /** `_is_halfbroken`: broken, and at least `timeout` has passed since. */
  function IsHalfBroken(c: Counter, now: real): (b: bool)
    ensures b ==> c.brokenTime.Some?
    ensures c.brokenTime.Some? ==> (b <==> now >= c.brokenTime.value + c.timeout)
  {
    c.brokenTime.Some? && now - c.brokenTime.value >= c.timeout
  }

  /** `time_remaining`: how long a broken circuit stays broken, never negative. */
  function TimeRemaining(c: Counter, now: real): (t: real)
    ensures t >= 0.0
    ensures c.brokenTime == None ==> t == 0.0
    ensures IsHalfBroken(c, now) ==> t == 0.0
    ensures t > 0.0 ==> c.brokenTime.Some? && t == c.timeout - (now - c.brokenTime.value)
    ensures c.brokenTime.Some? && !IsHalfBroken(c, now) ==> t > 0.0
    ensures c.brokenTime.Some? && c.brokenTime.value <= now && c.timeout >= 0.0 ==> t <= c.timeout
  {
    match c.brokenTime
    case None => 0.0
    case Some(b) =>
      var result := c.timeout - (now - b);
      if result > 0.0 then result else 0.0
  }

  /** `state`: exactly one of the three states holds; ok means never broken
      or closed again, broken means the circuit still has time remaining. */
  function StateAt(c: Counter, now: real): (s: State)
    ensures s == Ok <==> c.brokenTime == None
    ensures s == HalfBroken <==> IsHalfBroken(c, now)
    ensures s == Broken <==> TimeRemaining(c, now) > 0.0
  {
    if c.brokenTime.Some? then
      if IsHalfBroken(c, now) then HalfBroken else Broken
    else Ok
  }

  /** `_update_failures`: drop the failures older than `now - timeout` from
      the front of the window.  What is dropped is a stale prefix; what is
      kept is the window's tail, unchanged, starting with a recent failure. */
  function UpdateFailures(c: Counter, now: real): (r: Counter)
    ensures r == c.(failures := r.failures)
    ensures |r.failures| <= |c.failures|
    ensures forall i :: 0 <= i < |c.failures| - |r.failures| ==> c.failures[i] < now - c.timeout
    ensures r.failures == [] || r.failures[0] >= now - c.timeout
  {
    c.(failures := Evict(c.failures, now - c.timeout))
  }

  /** What `_update_failures` keeps is the window's tail, unchanged and in
      order: only the front is popped. */
  lemma UpdateFailuresKeepsTail(c: Counter, now: real)
    ensures var r := UpdateFailures(c, now);
      r.failures == c.failures[|c.failures| - |r.failures|..]
  {
    EvictIsSuffix(c.failures, now - c.timeout);
  }

  /** `add_failure`: evict, record `now`, and break the circuit (restarting
      its timer) when the window has reached the threshold or the counter was
      halfbroken; otherwise the broken time is left alone. */
  function AddFailure(c: Counter, now: real): (r: Counter)
    ensures r.threshold == c.threshold && r.timeout == c.timeout
    ensures r.failures == Evict(c.failures, now - c.timeout) + [now]
    ensures |r.failures| >= c.threshold || IsHalfBroken(c, now) ==> r.brokenTime == Some(now)
    ensures !(|r.failures| >= c.threshold || IsHalfBroken(c, now)) ==> r.brokenTime == c.brokenTime
    ensures IsHalfBroken(c, now) && c.timeout > 0.0 ==> StateAt(r, now) == Broken
  {
    var u := UpdateFailures(c, now);
    var appended := u.(failures := u.failures + [now]);
    if |appended.failures| >= c.threshold || IsHalfBroken(c, now) then
      appended.(brokenTime := Some(now))
    else
      appended
  }

  /** `add_success`: close the circuit.  A success while halfbroken forgets
      every failure; otherwise only stale failures are evicted, so recent
      failures survive. */
  function AddSuccess(c: Counter, now: real): (r: Counter)
    ensures r.threshold == c.threshold && r.timeout == c.timeout
    ensures r.brokenTime == None
    ensures IsHalfBroken(c, now) ==> r.failures == []
    ensures !IsHalfBroken(c, now) ==> r.failures == Evict(c.failures, now - c.timeout)
    ensures forall later :: StateAt(r, later) == Ok
  {
    var emptied := if IsHalfBroken(c, now) then c.(failures := []) else c;
    UpdateFailures(emptied, now).(brokenTime := None)
  }

  /** The counter as a monotonic clock leaves it: the window is in time
      order, and neither a failure nor the broken time lies after `now`. */
  ghost predicate Valid(c: Counter, now: real)
  {
    && Sorted(c.failures)
    && (forall x :: x in c.failures ==> x <= now)
    && (c.brokenTime.Some? ==> c.brokenTime.value <= now)
  }

  /** After `add_failure` at a time no earlier than the counter's last
      event, the counter is still valid and its window holds only failures
      from the last `timeout` seconds. */
  lemma AddFailureValid(c: Counter, now: real, later: real)
    requires Valid(c, now) && now <= later
    ensures Valid(AddFailure(c, later), later)
    ensures c.timeout >= 0.0 ==> forall x :: x in AddFailure(c, later).failures ==> later - c.timeout <= x <= later
  {
    var e := Evict(c.failures, later - c.timeout);
    EvictSorted(c.failures, later - c.timeout);
    SortedAppend(e, later);
  }

  /** After `add_success` the counter is still valid, closed, and its window
      holds only failures from the last `timeout` seconds. */
  lemma AddSuccessValid(c: Counter, now: real, later: real)
    requires Valid(c, now) && now <= later
    ensures Valid(AddSuccess(c, later), later)
    ensures forall x :: x in AddSuccess(c, later).failures ==> later - c.timeout <= x <= later
  {
    EvictSorted(c.failures, later - c.timeout);
  }

  /** A success in the ok or broken state does not forget recent failures:
      the window keeps exactly the failures of the last `timeout` seconds. */
  lemma OkSuccessKeepsRecentFailures(c: Counter, now: real)
    requires Sorted(c.failures) && !IsHalfBroken(c, now)
    ensures AddSuccess(c, now).failures == Recent(c.failures, now - c.timeout)
    ensures forall t :: t in c.failures && t >= now - c.timeout ==> t in AddSuccess(c, now).failures
  {
    EvictSortedIsRecent(c.failures, now - c.timeout);
  }

  /** The time remaining never grows as the clock advances, and while the
      circuit is broken it strictly shrinks. */
  lemma TimeRemainingNonIncreasing(c: Counter, earlier: real, later: real)
    requires earlier <= later
    ensures TimeRemaining(c, later) <= TimeRemaining(c, earlier)
    ensures earlier < later && StateAt(c, later) == Broken ==> TimeRemaining(c, later) < TimeRemaining(c, earlier)
  {
  }

  /** Once `timeout` has passed since the circuit broke, no time remains and
      the state is halfbroken. */
  lemma TimeRemainingReachesZero(c: Counter, now: real)
    requires c.brokenTime.Some? && now >= c.brokenTime.value + c.timeout
    ensures TimeRemaining(c, now) == 0.0
    ensures StateAt(c, now) == HalfBroken
  {
  }

  /** The halfbroken state is not set by a timer but read off the clock:
      it holds from `timeout` after the circuit broke, for as long as no
      operation touches the counter, and not before. */
  lemma HalfBrokenPersists(c: Counter, now: real, later: real)
    requires IsHalfBroken(c, now) && now <= later
    ensures IsHalfBroken(c, later) && StateAt(c, later) == HalfBroken
    ensures forall t :: t < c.brokenTime.value + c.timeout ==> !IsHalfBroken(c, t)
  {
  }

  /** A single failure while halfbroken re-opens the circuit whatever the
      threshold: the counter is broken again for the next `timeout` seconds. */
  lemma HalfBrokenFailureReopens(c: Counter, now: real, later: real)
    requires IsHalfBroken(c, now)
    requires now <= later < now + c.timeout
    ensures AddFailure(c, now).brokenTime == Some(now)
    ensures StateAt(AddFailure(c, now), later) == Broken
    ensures TimeRemaining(AddFailure(c, now), later) == c.timeout - (later - now)
  {
  }

  /** A success while halfbroken empties the window and closes the circuit. */
  lemma HalfBrokenSuccessCloses(c: Counter, now: real)
    requires IsHalfBroken(c, now)
    ensures AddSuccess(c, now).failures == []
    ensures StateAt(AddSuccess(c, now), now) == Ok
  {
  }

  /** Failures recorded one after another at the given times. */
  function AddFailures(c: Counter, times: seq<real>): Counter
    decreases |times|
  {
    if times == [] then c
    else AddFailure(AddFailures(c, times[..|times| - 1]), times[|times| - 1])
  }

  /** Leaky-bucket leniency: failures spaced more than `timeout` apart each
      leak out before the next arrives, so with a threshold of at least two
      they never break a closed circuit. */
  lemma {:induction false} SpacedFailuresNeverTrip(c: Counter, times: seq<real>)
    requires c.threshold >= 2 && c.brokenTime == None
    requires forall i :: 0 <= i < |c.failures| ==> |times| > 0 && c.failures[i] < times[0] - c.timeout
    requires forall i :: 0 <= i < |times| - 1 ==> times[i + 1] - times[i] > c.timeout
    ensures AddFailures(c, times).brokenTime == None
    ensures times != [] ==> AddFailures(c, times).failures == [times[|times| - 1]]
    ensures AddFailures(c, times).threshold == c.threshold && AddFailures(c, times).timeout == c.timeout
    decreases |times|
  {
    if times != [] {
      var n := |times|;
      var prefix := times[..n - 1];
      var before := AddFailures(c, prefix);
      if prefix == [] {
        assert before == c;
      } else {
        assert prefix[0] == times[0];
        SpacedFailuresNeverTrip(c, prefix);
        assert before.failures == [times[n - 2]];
        assert times[n - 2] < times[n - 1] - c.timeout;
      }
      LoneFailure(before, times[n - 1]);
    }
  }

  /** A failure arriving after every recorded failure has gone stale leaves
      a window holding only itself. */
  lemma LoneFailure(c: Counter, now: real)
    requires c.threshold >= 2 && c.brokenTime == None
    requires forall i :: 0 <= i < |c.failures| ==> c.failures[i] < now - c.timeout
    ensures AddFailure(c, now) == c.(failures := [now])
  {
    EvictAllStale(c.failures, now - c.timeout);
  }

  /** A burst of failures, in clock order, that all lie within `timeout` of
      the last one is never evicted, and breaks the circuit at the last
      failure once the window reaches the threshold. */
  lemma {:induction false} BurstTrips(c: Counter, times: seq<real>)
    requires times != []
    requires forall i :: 0 < i < |times| ==> times[i - 1] <= times[i]
    requires forall i :: 0 <= i < |c.failures| ==> c.failures[i] >= times[|times| - 1] - c.timeout
    requires forall i :: 0 <= i < |times| ==> times[i] >= times[|times| - 1] - c.timeout
    ensures AddFailures(c, times).failures == c.failures + times
    ensures |c.failures| + |times| >= c.threshold ==> AddFailures(c, times).brokenTime == Some(times[|times| - 1])
    ensures |c.failures| + |times| < c.threshold && c.brokenTime == None ==> AddFailures(c, times).brokenTime == None
    ensures AddFailures(c, times).threshold == c.threshold && AddFailures(c, times).timeout == c.timeout
    decreases |times|
  {
    var n := |times|;
    var prefix := times[..n - 1];
    var last := times[n - 1];
    var before := AddFailures(c, prefix);
    if prefix == [] {
      assert before == c;
      KeptFailure(before, c.failures, last);
    } else {
      assert times[n - 2] <= last;
      BurstTrips(c, prefix);
      assert before.failures[0] == if c.failures == [] then times[0] else c.failures[0];
      KeptFailure(before, c.failures + prefix, last);
      assert c.failures + prefix + [last] == c.failures + times;
    }
  }

  /** A failure within `timeout` of the oldest recorded one evicts nothing:
      it is appended to the window. */
  lemma KeptFailure(c: Counter, window: seq<real>, now: real)
    requires c.failures == window
    requires window == [] || window[0] >= now - c.timeout
    ensures AddFailure(c, now).failures == window + [now]
  {
    EvictNothingRecent(window, now - c.timeout);
  }
}

=== FILE: engine.dfy ===
/** `exec_`, the loop shared by `poll_` and `retry_`: call `f`, notify
    `on_error` and count every exception, re-raise an unmatched exception or
    the one that reaches `times`, return the first result that satisfies
    `until`, and otherwise sleep `interval` and give up with a timeout once
    the elapsed time exceeds `timeout`.

    The user function is a finite trace of attempts; the clock is the time
    elapsed since the loop started, advanced by each attempt's duration and
    by the sleep. */
module Engine {
  import opened Results
  import Classifier

  /** One call of `f`: what it produced, and how long the call (together
      with the callback or predicate that followed it) took on the clock. */
  datatype Attempt<V, E> = Attempt(outcome: Outcome<V, E>, duration: real)

  /** The loop's parameters.  `exs` is the normalised exception tuple;
      `until` may itself raise; `None` for `times` or `timeout` stands for
      `float("inf")`. */
  datatype Config<!V, !E, !K> = Config(
    exs: seq<K>,
    isInstance: (E, K) -> bool,
    until: V -> Outcome<bool, E>,
    times: Option<int>,
    timeout: Option<real>,
    interval: real)

  /** One invocation `on_error(e, count)`. */
  datatype Notice<E> = Notice(error: E, index: nat)

  /** How a run ends: `f`'s result, a propagated exception (from `f` or from
      `until`), `TimeoutError` carrying the loop's `count`, or the trace ran
      out while the loop would still call `f` again. */
  datatype Ending<V, E> = Returned(value: V) | Raised(error: E) | TimedOut(count: nat) | TraceEnded

  /** A run: its ending, the callback log in call order, and how many
      attempts of the trace `f` was called for. */
  datatype Run<V, E> = Run(ending: Ending<V, E>, notices: seq<Notice<E>>, calls: nat)

  /** `count >= times`, with `None` as infinity. */
  predicate Exhausted(times: Option<int>, count: int)
  {
    times.Some? && count >= times.value
  }

  /** `elapsed > timeout`, with `None` as infinity. */
  predicate Expired(timeout: Option<real>, elapsed: real)
  {
    timeout.Some? && elapsed > timeout.value
  }

  /** Whether the loop goes on to sleep after an attempt with this outcome,
      `count` exceptions having been seen before it: a matched exception
      below the limit, or a result that `until` rejects without raising. */
  ghost predicate Retries<V, E, K>(cfg: Config<V, E, K>, o: Outcome<V, E>, count: nat)
  {
    match o
    case Raise(e) => Classifier.Matches(cfg.isInstance, e, cfg.exs) && !Exhausted(cfg.times, count + 1)
    case Value(v) => cfg.until(v).Value? && !cfg.until(v).value
  }

  /** What one pass through the `try` block decides before any sleep. */
  datatype Step<V, E> = Stop(ending: Ending<V, E>, notices: seq<Notice<E>>) | Continue(count: nat, notices: seq<Notice<E>>)

  /** The `try`/`except`/`else` of the loop body for one outcome of `f`.  An
      exception is reported to `on_error` with the current count before it
      is classified; results never change the count. */
  function Try<V, E, K>(cfg: Config<V, E, K>, o: Outcome<V, E>, count: nat): (s: Step<V, E>)
    ensures o.Raise? ==> s.notices == [Notice(o.error, count)]
    ensures o.Value? ==> s.notices == []
    ensures s.Continue? <==> Retries(cfg, o, count)
    ensures s.Continue? ==> s.count == count + |s.notices|
    ensures s.Stop? && o.Raise? ==> s.ending == Raised(o.error)
    ensures s.Stop? && o.Value? && cfg.until(o.value).Value? ==> s.ending == Returned(o.value) && cfg.until(o.value).value
    ensures s.Stop? && o.Value? && cfg.until(o.value).Raise? ==> s.ending == Raised(cfg.until(o.value).error)
  {
    match o
    case Raise(e) =>
      var n := [Notice(e, count)];
      if Exhausted(cfg.times, count + 1) || !Classifier.Matches(cfg.isInstance, e, cfg.exs) then Stop(Raised(e), n)
      else Continue(count + 1, n)
    case Value(v) =>
      match cfg.until(v)
      case Raise(e) => Stop(Raised(e), [])
      case Value(satisfied) => if satisfied then Stop(Returned(v), []) else Continue(count, [])
  }

  /** The `while True` loop from a given exception count and elapsed time. */
  function Loop<V, E, K>(cfg: Config<V, E, K>, trace: seq<Attempt<V, E>>, count: nat, elapsed: real): (r: Run<V, E>)
    ensures r.calls <= |trace|
    ensures trace != [] ==> r.calls >= 1
    ensures r.ending.TraceEnded? ==> r.calls == |trace|
    ensures |r.notices| <= r.calls
    decreases |trace|
  {
    if trace == [] then Run(TraceEnded, [], 0)
    else
      match Try(cfg, trace[0].outcome, count)
      case Stop(ending, ns) => Run(ending, ns, 1)
      case Continue(next, ns) =>
        var now := elapsed + trace[0].duration + cfg.interval;
        if Expired(cfg.timeout, now) then Run(TimedOut(next), ns, 1)
        else
          var rest := Loop(cfg, trace[1..], next, now);
          Run(rest.ending, ns + rest.notices, 1 + rest.calls)
  }

  /** `exec_`: normalise `ex`, then run the loop from count 0 at time 0.
      The first attempt always runs; every attempt before the last one was
      retried within the deadline; the last one explains the ending; and
      `on_error` saw every exception, numbered from 0. */
  function Exec<V, E, K>(
    ex: Classifier.ExSpec<K>, isInstance: (E, K) -> bool, until: V -> Outcome<bool, E>,
    times: Option<int>, timeout: Option<real>, interval: real, trace: seq<Attempt<V, E>>): (r: Run<V, E>)
    ensures r.calls <= |trace| && (trace != [] ==> r.calls >= 1)
    ensures trace == [] ==> r == Run(TraceEnded, [], 0)
    ensures r.ending.TraceEnded? ==> r.calls == |trace|
    ensures var cfg := Config(Classifier.Normalize(ex), isInstance, until, times, timeout, interval);
      forall i :: 0 <= i < r.calls - 1 ==> Continues(cfg, trace, 0, 0.0, i)
    ensures var cfg := Config(Classifier.Normalize(ex), isInstance, until, times, timeout, interval);
      trace != [] ==> EndingExplained(cfg, trace, 0, 0.0, r)
    ensures |r.notices| == |Errors(Called(trace, r.calls))|
    ensures forall j :: 0 <= j < |r.notices| ==> r.notices[j] == Notice(Errors(Called(trace, r.calls))[j], j)
  {
    var cfg := Config(Classifier.Normalize(ex), isInstance, until, times, timeout, interval);
    LoopPrefix(cfg, trace, 0, 0.0);
    LoopNotices(cfg, trace, 0, 0.0);
    if trace != [] then LoopEnding(cfg, trace, 0, 0.0); Loop(cfg, trace, 0, 0.0)
    else Loop(cfg, trace, 0, 0.0)
  }

  /* ---------------- reference quantities over a trace prefix ---------------- */

  /** The exceptions raised by `f` in a trace, in order. */
  function Errors<V, E>(t: seq<Attempt<V, E>>): seq<E>
    decreases |t|
  {
    if t == [] then []
    else (if t[0].outcome.Raise? then [t[0].outcome.error] else []) + Errors(t[1..])
  }

  /** Clock time used by a trace of attempts, each followed by a sleep. */
  function Elapsed<V, E>(interval: real, t: seq<Attempt<V, E>>): real
    decreases |t|
  {
    if t == [] then 0.0 else t[0].duration + interval + Elapsed(interval, t[1..])
  }

  /** The attempts of a trace that a run of `n` calls made: its first `n`,
      or all of it when it is shorter. */
  function Called<V, E>(trace: seq<Attempt<V, E>>, n: nat): (t: seq<Attempt<V, E>>)
    ensures t <= trace
    ensures |t| == if n <= |trace| then n else |trace|
  {
    if n <= |trace| then trace[..n] else trace
  }

  /** The attempt at index `i` is retried, and the clock after its sleep has
      not passed the timeout. */
  ghost predicate Continues<V, E, K>(cfg: Config<V, E, K>, trace: seq<Attempt<V, E>>, count: nat, elapsed: real, i: nat)
    requires i < |trace|
  {
    && Retries(cfg, trace[i].outcome, count + |Errors(trace[..i])|)
    && !Expired(cfg.timeout, elapsed + Elapsed(cfg.interval, trace[..i + 1]))
  }

  lemma PrefixShift<V, E>(interval: real, trace: seq<Attempt<V, E>>, i: nat)
    requires 1 <= i <= |trace|
    ensures Errors(trace[..i]) == Errors(trace[..1]) + Errors(trace[1..][..i - 1])
    ensures Elapsed(interval, trace[..i]) == trace[0].duration + interval + Elapsed(interval, trace[1..][..i - 1])
  {
    assert trace[..i][1..] == trace[1..][..i - 1];
    assert trace[..1][1..] == [];
  }

  /** `on_error` is called once per exception of `f`, in order, with
      0-based indices counting the exceptions before it — including the
      final, re-raised one. */
  lemma {:induction false} LoopNotices<V, E, K>(cfg: Config<V, E, K>, trace: seq<Attempt<V, E>>, count: nat, elapsed: real)
    ensures NoticesNumbered(cfg, trace, count, elapsed)
    decreases |trace|
  {
    if trace != [] {
      var r := Loop(cfg, trace, count, elapsed);
      HeadErrors(trace);
      match Try(cfg, trace[0].outcome, count)
      case Stop(ending, ns) =>
        assert r == Run(ending, ns, 1);
      case Continue(next, ns) =>
        var now := elapsed + trace[0].duration + cfg.interval;
        if Expired(cfg.timeout, now) {
          assert r == Run(TimedOut(next), ns, 1);
        } else {
          LoopNotices(cfg, trace[1..], next, now);
          NoticesStep(cfg, trace, count, elapsed);
        }
    }
  }

  /** The notices of a run are numbered exceptions of the attempts called. */
  ghost predicate NoticesNumbered<V, E, K>(cfg: Config<V, E, K>, trace: seq<Attempt<V, E>>, count: nat, elapsed: real)
  {
    var r := Loop(cfg, trace, count, elapsed);
    && |r.notices| == |Errors(trace[..r.calls])|
    && forall j :: 0 <= j < |r.notices| ==> r.notices[j] == Notice(Errors(trace[..r.calls])[j], count + j)
  }

  /** The inductive step of `LoopNotices`: a retried first attempt whose
      sleep stays within the timeout. */
  lemma NoticesStep<V, E, K>(cfg: Config<V, E, K>, trace: seq<Attempt<V, E>>, count: nat, elapsed: real)
    requires trace != [] && Try(cfg, trace[0].outcome, count).Continue?
    requires !Expired(cfg.timeout, elapsed + trace[0].duration + cfg.interval)
    requires NoticesNumbered(cfg, trace[1..], Try(cfg, trace[0].outcome, count).count, elapsed + trace[0].duration + cfg.interval)
    ensures NoticesNumbered(cfg, trace, count, elapsed)
  {
    var step := Try(cfg, trace[0].outcome, count);
    var now := elapsed + trace[0].duration + cfg.interval;
    var r := Loop(cfg, trace, count, elapsed);
    var rest := Loop(cfg, trace[1..], step.count, now);
    assert r == Run(rest.ending, step.notices + rest.notices, 1 + rest.calls);
    var head := Errors(trace[..1]);
    var tail := Errors(trace[1..][..rest.calls]);
    HeadErrors(trace);
    assert |step.notices| == |head| && step.count == count + |head|;
    PrefixShift(cfg.interval, trace, r.calls);
    NoticesConcat(step.notices, head, rest.notices, tail, count);
    assert Errors(trace[..r.calls]) == head + tail;
  }

  /** Numbered notices for two runs of exceptions, the second numbered on
      from the first, make numbered notices for the whole run. */
  lemma NoticesConcat<E>(ns: seq<Notice<E>>, head: seq<E>, more: seq<Notice<E>>, tail: seq<E>, count: nat)
    requires |ns| == |head| && forall j :: 0 <= j < |ns| ==> ns[j] == Notice(head[j], count + j)
    requires |more| == |tail| && forall j :: 0 <= j < |more| ==> more[j] == Notice(tail[j], count + |head| + j)
    ensures |ns + more| == |head + tail|
    ensures forall j :: 0 <= j < |ns + more| ==> (ns + more)[j] == Notice((head + tail)[j], count + j)
  {
    forall j | 0 <= j < |ns + more|
      ensures (ns + more)[j] == Notice((head + tail)[j], count + j)
    {
      if j >= |ns| {
        assert (ns + more)[j] == more[j - |ns|];
        assert (head + tail)[j] == tail[j - |ns|];
      }
    }
  }

  /** The exceptions of a one-attempt prefix. */
  lemma HeadErrors<V, E>(trace: seq<Attempt<V, E>>)
    requires trace != []
    ensures trace[0].outcome.Raise? ==> Errors(trace[..1]) == [trace[0].outcome.error]
    ensures trace[0].outcome.Value? ==> Errors(trace[..1]) == []
  {
    assert trace[..1][1..] == [];
  }

  /** Every attempt before the last one called was retried, and the clock
      after its sleep had not passed the timeout: the loop stops at the first
      attempt that is not retried or whose sleep runs past the timeout. */
  lemma {:induction false} LoopPrefix<V, E, K>(cfg: Config<V, E, K>, trace: seq<Attempt<V, E>>, count: nat, elapsed: real)
    ensures var r := Loop(cfg, trace, count, elapsed);
      forall i :: 0 <= i < r.calls - 1 ==> Continues(cfg, trace, count, elapsed, i)
    decreases |trace|
  {
    if trace != [] {
      var r := Loop(cfg, trace, count, elapsed);
      HeadErrors(trace);
      match Try(cfg, trace[0].outcome, count)
      case Stop(ending, ns) =>
      case Continue(next, ns) =>
        var now := elapsed + trace[0].duration + cfg.interval;
        if !Expired(cfg.timeout, now) {
          var rest := Loop(cfg, trace[1..], next, now);
          LoopPrefix(cfg, trace[1..], next, now);
          forall i | 0 <= i < r.calls - 1
            ensures Continues(cfg, trace, count, elapsed, i)
          {
            ContinuesShift(cfg, trace, count, elapsed, i);
          }
        }
    }
  }

  /** The inductive step of `LoopPrefix`: when the first attempt is retried
      within the deadline, attempt `i` continues exactly when attempt
      `i - 1` of the rest of the trace does. */
  lemma ContinuesShift<V, E, K>(cfg: Config<V, E, K>, trace: seq<Attempt<V, E>>, count: nat, elapsed: real, i: nat)
    requires i < |trace| && Try(cfg, trace[0].outcome, count).Continue?
    requires !Expired(cfg.timeout, elapsed + trace[0].duration + cfg.interval)
    requires i > 0 ==> Continues(cfg, trace[1..], Try(cfg, trace[0].outcome, count).count,
      elapsed + trace[0].duration + cfg.interval, i - 1)
    ensures Continues(cfg, trace, count, elapsed, i)
  {
    HeadErrors(trace);
    PrefixShift(cfg.interval, trace, i + 1);
    assert Elapsed(cfg.interval, trace[1..][..0]) == 0.0;
    if i > 0 {
      PrefixShift(cfg.interval, trace, i);
      assert trace[1..][i - 1] == trace[i];
    }
  }

  /** How the last attempt called (index `r.calls - 1`) decides the ending
      of run `r`: a result is returned only if `until` accepted it; an
      exception propagates only if `f` raised it and it was not retried, or
      `until` raised it; a timeout comes only after a retried attempt whose
      sleep passed the deadline, and carries the number of exceptions so
      far; the trace runs out only after a retried attempt within the
      deadline. */
  ghost predicate EndingExplained<V, E, K>(
    cfg: Config<V, E, K>, trace: seq<Attempt<V, E>>, count: nat, elapsed: real, r: Run<V, E>)
    requires 1 <= r.calls <= |trace|
  {
    var k := r.calls - 1;
    var o := trace[k].outcome;
    var before := count + |Errors(trace[..k])|;
    var clock := elapsed + Elapsed(cfg.interval, trace[..r.calls]);
    && (r.ending.Returned? ==> o == Value(r.ending.value) && cfg.until(r.ending.value) == Value(true))
    && (r.ending.Raised? ==>
          (o == Raise(r.ending.error) && !Retries(cfg, o, before))
          || (o.Value? && cfg.until(o.value) == Raise(r.ending.error)))
    && (r.ending.TimedOut? ==>
          Retries(cfg, o, before) && Expired(cfg.timeout, clock)
          && r.ending.count == count + |Errors(trace[..r.calls])|)
    && (r.ending.TraceEnded? ==> Retries(cfg, o, before) && !Expired(cfg.timeout, clock))
  }

  /** The last attempt called explains how every run on a non-empty trace
      ends. */
  lemma {:induction false} LoopEnding<V, E, K>(cfg: Config<V, E, K>, trace: seq<Attempt<V, E>>, count: nat, elapsed: real)
    requires trace != []
    ensures EndingExplained(cfg, trace, count, elapsed, Loop(cfg, trace, count, elapsed))
    decreases |trace|
  {
    var r := Loop(cfg, trace, count, elapsed);
    match Try(cfg, trace[0].outcome, count)
    case Stop(ending, ns) =>
      assert r == Run(ending, ns, 1);
      FirstAttemptExplains(cfg, trace, count, elapsed, r);
    case Continue(next, ns) =>
      var now := elapsed + trace[0].duration + cfg.interval;
      if Expired(cfg.timeout, now) {
        assert r == Run(TimedOut(next), ns, 1);
        FirstAttemptExplains(cfg, trace, count, elapsed, r);
      } else if |trace| == 1 {
        assert Loop(cfg, trace[1..], next, now) == Run(TraceEnded, [], 0);
        assert r == Run(TraceEnded, ns, 1);
        FirstAttemptExplains(cfg, trace, count, elapsed, r);
      } else {
        var rest := Loop(cfg, trace[1..], next, now);
        assert r == Run(rest.ending, ns + rest.notices, 1 + rest.calls);
        LoopEnding(cfg, trace[1..], next, now);
        HeadErrors(trace);
        ExplainedShift(cfg, trace, count, elapsed, next, rest, r);
      }
  }

  /** A run that stops at the first attempt is explained by that attempt. */
  lemma FirstAttemptExplains<V, E, K>(
    cfg: Config<V, E, K>, trace: seq<Attempt<V, E>>, count: nat, elapsed: real, r: Run<V, E>)
    requires trace != [] && r.calls == 1
    requires var s := Try(cfg, trace[0].outcome, count);
      var now := elapsed + trace[0].duration + cfg.interval;
      || (s.Stop? && r.ending == s.ending)
      || (s.Continue? && Expired(cfg.timeout, now) && r.ending == TimedOut(s.count))
      || (s.Continue? && !Expired(cfg.timeout, now) && r.ending == TraceEnded)
    ensures EndingExplained(cfg, trace, count, elapsed, r)
  {
    HeadErrors(trace);
    PrefixShift(cfg.interval, trace, 1);
    assert Elapsed(cfg.interval, trace[1..][..0]) == 0.0;
    assert trace[..0] == [];
  }

  /** An explanation of the rest of the run, after a first attempt that was
      retried within the deadline, explains the whole run `r`. */
  lemma ExplainedShift<V, E, K>(
    cfg: Config<V, E, K>, trace: seq<Attempt<V, E>>, count: nat, elapsed: real,
    next: nat, rest: Run<V, E>, r: Run<V, E>)
    requires |trace| >= 2
    requires next == count + |Errors(trace[..1])|
    requires 1 <= rest.calls <= |trace| - 1
    requires EndingExplained(cfg, trace[1..], next, elapsed + trace[0].duration + cfg.interval, rest)
    requires r.calls == 1 + rest.calls && r.ending == rest.ending
    ensures EndingExplained(cfg, trace, count, elapsed, r)
  {
    var k := rest.calls;
    PrefixShift(cfg.interval, trace, k);
    PrefixShift(cfg.interval, trace, k + 1);
    assert trace[1..][k - 1] == trace[k];
  }

  /** An exception that is not matched propagates from the first attempt,
      after one callback; nothing is retried. */
  lemma UnmatchedRaisesAtOnce<V, E, K>(cfg: Config<V, E, K>, trace: seq<Attempt<V, E>>, count: nat, elapsed: real)
    requires trace != [] && trace[0].outcome.Raise?
    requires !Classifier.Matches(cfg.isInstance, trace[0].outcome.error, cfg.exs)
    ensures Loop(cfg, trace, count, elapsed) == Run(Raised(trace[0].outcome.error), [Notice(trace[0].outcome.error, count)], 1)
  {
  }

  /** A prefix made only of exceptions has one exception per attempt. */
  lemma {:induction false} ErrorsOfFailures<V, E>(t: seq<Attempt<V, E>>)
    requires forall i :: 0 <= i < |t| ==> t[i].outcome.Raise?
    ensures |Errors(t)| == |t|
    ensures forall i :: 0 <= i < |t| ==> Errors(t)[i] == t[i].outcome.error
    decreases |t|
  {
    if t != [] {
      ErrorsOfFailures(t[1..]);
    }
  }

  /** An `f` that always raises a matched exception is called exactly
      `times` times (when there is no timeout); the `times`-th exception
      itself is re-raised, after callbacks with indices 0 .. times-1. */
  lemma AlwaysFailingCalledTimes<V, E, K>(cfg: Config<V, E, K>, trace: seq<Attempt<V, E>>, elapsed: real, n: nat)
    requires cfg.times == Some(n) && n >= 1 && cfg.timeout == None
    requires |trace| >= n
    requires forall i :: 0 <= i < |trace| ==>
      trace[i].outcome.Raise? && Classifier.Matches(cfg.isInstance, trace[i].outcome.error, cfg.exs)
    ensures var r := Loop(cfg, trace, 0, elapsed);
      && r.calls == n
      && r.ending == Raised(trace[n - 1].outcome.error)
      && |r.notices| == n
      && forall j :: 0 <= j < n ==> r.notices[j] == Notice(trace[j].outcome.error, j)
  {
    var r := Loop(cfg, trace, 0, elapsed);
    LoopPrefix(cfg, trace, 0, elapsed);
    LoopEnding(cfg, trace, 0, elapsed);
    LoopNotices(cfg, trace, 0, elapsed);
    var k := r.calls - 1;
    assert trace[..k] == trace[..r.calls][..k];
    ErrorsOfFailures(trace[..r.calls]);
    ErrorsOfFailures(trace[..k]);
    if k > 0 {
      ErrorsOfFailures(trace[..k - 1]);
      assert Continues(cfg, trace, 0, elapsed, k - 1);
    }
  }

  /** The clock after `n` sleeps of `interval` each. */
  function Sleeps(n: nat, interval: real): real
  {
    if n == 0 then 0.0 else Sleeps(n - 1, interval) + interval
  }

  /** `n` sleeps take `n * interval`. */
  lemma {:induction false} SleepsIsProduct(n: nat, interval: real)
    ensures Sleeps(n, interval) == (n as real) * interval
  {
    if n > 0 {
      SleepsIsProduct(n - 1, interval);
    }
  }

  /** With zero-duration calls the clock is one interval per attempt. */
  lemma {:induction false} ElapsedOfInstantCalls<V, E>(interval: real, t: seq<Attempt<V, E>>)
    requires forall i :: 0 <= i < |t| ==> t[i].duration == 0.0
    ensures Elapsed(interval, t) == Sleeps(|t|, interval)
    decreases |t|
  {
    if t != [] {
      ElapsedOfInstantCalls(interval, t[1..]);
      SleepsFirst(|t|, interval);
    }
  }

  /** Sleeps counted from the first one rather than the last. */
  lemma {:induction false} SleepsFirst(n: nat, interval: real)
    requires n > 0
    ensures Sleeps(n, interval) == interval + Sleeps(n - 1, interval)
  {
    if n > 1 {
      SleepsFirst(n - 1, interval);
    }
  }

  /** `poll_`: no exception class is caught, no attempt limit. */
  function Poll<V, E, K>(
    isInstance: (E, K) -> bool, until: V -> Outcome<bool, E>,
    timeout: Option<real>, interval: real, trace: seq<Attempt<V, E>>): (r: Run<V, E>)
    ensures r.calls <= |trace| && (trace != [] ==> r.calls >= 1)
    ensures forall i :: 0 <= i < r.calls - 1 ==> trace[i].outcome.Value? && until(trace[i].outcome.value) == Value(false)
    ensures r.ending.Returned? ==>
      (r.calls > 0 && trace[r.calls - 1].outcome == Value(r.ending.value) && until(r.ending.value) == Value(true))
    ensures r.calls > 0 && trace[r.calls - 1].outcome.Value? && until(trace[r.calls - 1].outcome.value) == Value(true) ==>
      r.ending == Returned(trace[r.calls - 1].outcome.value)
    ensures r.calls > 0 && trace[r.calls - 1].outcome.Raise? ==>
      r.ending == Raised(trace[r.calls - 1].outcome.error) && r.notices == [Notice(trace[r.calls - 1].outcome.error, 0)]
    ensures r.calls > 0 && trace[r.calls - 1].outcome.Value? ==> r.notices == []
    ensures r.ending.TimedOut? ==> r.ending.count == 0
    ensures r.ending.TimedOut? ==>
      r.calls > 0 && forall i :: 0 <= i < r.calls ==> trace[i].outcome.Value? && until(trace[i].outcome.value) == Value(false)
    ensures r.ending.TimedOut? ==> Expired(timeout, Elapsed(interval, Called(trace, r.calls)))
    ensures r.ending.TraceEnded? ==> r.calls == |trace|
    ensures forall i :: 0 <= i < r.calls - 1 ==>
      Continues(Config([], isInstance, until, None, timeout, interval), trace, 0, 0.0, i)
    ensures trace != [] ==> EndingExplained(Config([], isInstance, until, None, timeout, interval), trace, 0, 0.0, r)
  {
    var cfg := Config([], isInstance, until, None, timeout, interval);
    assert Classifier.Normalize<K>(Classifier.Several([])) == [];
    var r := Exec(Classifier.Several([]), isInstance, until, None, timeout, interval, trace);
    PollRetriesValuesOnly(cfg, trace, r.calls);
    NoErrorsBeforeLast(cfg, trace, r.calls);
    r
  }

  /** With no exception class to catch, only results that `until` rejects
      are retried. */
  lemma PollRetriesValuesOnly<V, E, K>(cfg: Config<V, E, K>, trace: seq<Attempt<V, E>>, calls: nat)
    requires cfg.exs == [] && calls <= |trace|
    requires forall i :: 0 <= i < calls - 1 ==> Continues(cfg, trace, 0, 0.0, i)
    ensures forall i :: 0 <= i < calls - 1 ==>
      trace[i].outcome.Value? && cfg.until(trace[i].outcome.value) == Value(false)
  {
    forall i | 0 <= i < calls - 1
      ensures trace[i].outcome.Value? && cfg.until(trace[i].outcome.value) == Value(false)
    {
      assert Continues(cfg, trace, 0, 0.0, i);
      var u := cfg.until(trace[i].outcome.value);
      if trace[i].outcome.Value? {
        assert u.Value? && !u.value;
      }
    }
  }

  /** When `until` always holds, only matched exceptions are retried. */
  lemma RetryRetriesErrorsOnly<V, E, K>(cfg: Config<V, E, K>, trace: seq<Attempt<V, E>>, calls: nat)
    requires forall v :: cfg.until(v) == Value(true)
    requires calls <= |trace|
    requires forall i :: 0 <= i < calls - 1 ==> Continues(cfg, trace, 0, 0.0, i)
    ensures forall i :: 0 <= i < calls - 1 ==>
      trace[i].outcome.Raise? && Classifier.Matches(cfg.isInstance, trace[i].outcome.error, cfg.exs)
  {
    forall i | 0 <= i < calls - 1
      ensures trace[i].outcome.Raise? && Classifier.Matches(cfg.isInstance, trace[i].outcome.error, cfg.exs)
    {
      assert Continues(cfg, trace, 0, 0.0, i);
    }
  }

  /** In a poll, every attempt before the last one called returned a value. */
  lemma NoErrorsBeforeLast<V, E, K>(cfg: Config<V, E, K>, trace: seq<Attempt<V, E>>, calls: nat)
    requires calls <= |trace|
    requires forall i :: 0 <= i < calls - 1 ==> trace[i].outcome.Value?
    ensures calls > 0 ==> Errors(trace[..calls - 1]) == []
    ensures calls > 0 ==> Errors(trace[..calls]) == Errors(trace[calls - 1..calls])
  {
    if calls > 0 {
      ValuesHaveNoErrors(trace[..calls - 1]);
      ErrorsAppend(trace[..calls - 1], trace[calls - 1..calls]);
      assert trace[..calls - 1] + trace[calls - 1..calls] == trace[..calls];
    }
  }

  lemma {:induction false} ValuesHaveNoErrors<V, E>(t: seq<Attempt<V, E>>)
    requires forall i :: 0 <= i < |t| ==> t[i].outcome.Value?
    ensures Errors(t) == []
    decreases |t|
  {
    if t != [] {
      ValuesHaveNoErrors(t[1..]);
    }
  }

  lemma {:induction false} ErrorsAppend<V, E>(a: seq<Attempt<V, E>>, b: seq<Attempt<V, E>>)
    ensures Errors(a + b) == Errors(a) + Errors(b)
    decreases |a|
  {
    if a != [] {
      assert (a + b)[1..] == a[1..] + b;
      assert (a + b)[0] == a[0];
      ErrorsAppend(a[1..], b);
    } else {
      assert a + b == b;
    }
  }

  /** The `until` of `retry_`: every result is accepted. */
  function AlwaysSatisfied<V, E>(v: V): Outcome<bool, E>
  {
    Value(true)
  }

  /** `retry_`: `until` always holds and there is no timeout. */
  function Retry<V, E, K>(
    ex: Classifier.ExSpec<K>, isInstance: (E, K) -> bool,
    times: Option<int>, interval: real, trace: seq<Attempt<V, E>>): (r: Run<V, E>)
    ensures r.calls <= |trace| && (trace != [] ==> r.calls >= 1)
    ensures !r.ending.TimedOut?
    ensures r.ending.TraceEnded? ==> r.calls == |trace|
    ensures forall i :: 0 <= i < r.calls - 1 ==>
      trace[i].outcome.Raise? && Classifier.Matches(isInstance, trace[i].outcome.error, Classifier.Normalize(ex))
    ensures r.ending.Returned? ==> r.calls > 0 && trace[r.calls - 1].outcome == Value(r.ending.value)
    ensures r.calls > 0 && trace[r.calls - 1].outcome.Value? ==> r.ending == Returned(trace[r.calls - 1].outcome.value)
    ensures r.ending.Raised? ==>
      && r.calls > 0 && trace[r.calls - 1].outcome == Raise(r.ending.error)
      && (!Classifier.Matches(isInstance, r.ending.error, Classifier.Normalize(ex))
          || Exhausted(times, |Errors(Called(trace, r.calls))|))
    ensures |r.notices| == |Errors(Called(trace, r.calls))|
    ensures forall j :: 0 <= j < |r.notices| ==> r.notices[j] == Notice(Errors(Called(trace, r.calls))[j], j)
    ensures forall i :: 0 <= i < r.calls - 1 ==>
      Continues(Config(Classifier.Normalize(ex), isInstance, AlwaysSatisfied, times, None, interval), trace, 0, 0.0, i)
    ensures trace != [] ==>
      EndingExplained(Config(Classifier.Normalize(ex), isInstance, AlwaysSatisfied, times, None, interval), trace, 0, 0.0, r)
  {
    var cfg := Config(Classifier.Normalize(ex), isInstance, AlwaysSatisfied, times, None, interval);
    var r := Exec(ex, isInstance, AlwaysSatisfied, times, None, interval, trace);
    RetryRetriesErrorsOnly(cfg, trace, r.calls);
    if r.calls > 0 then LastErrors(trace, r.calls); r else r
  }

  /** The exceptions of a prefix, split off at its last attempt. */
  lemma LastErrors<V, E>(trace: seq<Attempt<V, E>>, n: nat)
    requires 1 <= n <= |trace|
    ensures trace[n - 1].outcome.Raise? ==> Errors(trace[..n]) == Errors(trace[..n - 1]) + [trace[n - 1].outcome.error]
    ensures trace[n - 1].outcome.Value? ==> Errors(trace[..n]) == Errors(trace[..n - 1])
  {
    assert trace[..n - 1] + trace[n - 1..n] == trace[..n];
    ErrorsAppend(trace[..n - 1], trace[n - 1..n]);
    HeadErrors(trace[n - 1..n]);
    assert trace[n - 1..n][..1] == trace[n - 1..n];
  }

  /** The retry promise: `k` matched exceptions and then a result, with
      fewer than `times` exceptions, return that result after `k + 1` calls
      and callbacks numbered 0 to `k - 1`. */
  lemma RetryRecovers<V, E, K>(
    ex: Classifier.ExSpec<K>, isInstance: (E, K) -> bool,
    times: Option<int>, interval: real, trace: seq<Attempt<V, E>>, k: nat)
    requires k < |trace| && trace[k].outcome.Value?
    requires forall i :: 0 <= i < k ==>
      trace[i].outcome.Raise? && Classifier.Matches(isInstance, trace[i].outcome.error, Classifier.Normalize(ex))
    requires k > 0 ==> !Exhausted(times, k)
    ensures var r := Retry(ex, isInstance, times, interval, trace);
      && r.ending == Returned(trace[k].outcome.value) && r.calls == k + 1
      && |r.notices| == k
      && forall j :: 0 <= j < k ==> r.notices[j] == Notice(trace[j].outcome.error, j)
  {
    var cfg := Config(Classifier.Normalize(ex), isInstance, AlwaysSatisfied, times, None, interval);
    RecoveringLoop(cfg, trace, 0, 0.0, k);
  }

  /** `RetryRecovers` for the loop from any count and clock. */
  lemma {:induction false} RecoveringLoop<V, E, K>(cfg: Config<V, E, K>, trace: seq<Attempt<V, E>>, count: nat, elapsed: real, k: nat)
    requires cfg.timeout == None && forall v :: cfg.until(v) == Value(true)
    requires k < |trace| && trace[k].outcome.Value?
    requires forall i :: 0 <= i < k ==>
      trace[i].outcome.Raise? && Classifier.Matches(cfg.isInstance, trace[i].outcome.error, cfg.exs)
    requires k > 0 ==> !Exhausted(cfg.times, count + k)
    ensures var r := Loop(cfg, trace, count, elapsed);
      && r.ending == Returned(trace[k].outcome.value) && r.calls == k + 1
      && |r.notices| == k
      && forall j :: 0 <= j < k ==> r.notices[j] == Notice(trace[j].outcome.error, count + j)
    decreases k
  {
    var r := Loop(cfg, trace, count, elapsed);
    if k == 0 {
      assert cfg.until(trace[0].outcome.value) == Value(true);
      assert r == Run(Returned(trace[0].outcome.value), [], 1);
    } else {
      var e := trace[0].outcome.error;
      var now := elapsed + trace[0].duration + cfg.interval;
      assert !Exhausted(cfg.times, count + 1);
      assert Try(cfg, trace[0].outcome, count) == Continue(count + 1, [Notice(e, count)]);
      var rest := Loop(cfg, trace[1..], count + 1, now);
      assert r == Run(rest.ending, [Notice(e, count)] + rest.notices, 1 + rest.calls);
      assert forall i :: 0 <= i < k - 1 ==> trace[1..][i] == trace[i + 1];
      RecoveringLoop(cfg, trace[1..], count + 1, now, k - 1);
      forall j | 0 <= j < k ensures r.notices[j] == Notice(trace[j].outcome.error, count + j) {
        if j > 0 {
          assert r.notices[j] == rest.notices[j - 1];
        }
      }
    }
  }

  /** A poll whose calls take no time and whose results never satisfy
      `until` times out with a count of 0 after the first attempt whose
      sleep takes the clock past the timeout: after `calls` sleeps the clock
      is past the timeout, after `calls - 1` it was not. */
  lemma PollTimeoutAttempts<V, E, K>(
    isInstance: (E, K) -> bool, until: V -> Outcome<bool, E>,
    timeout: real, interval: real, trace: seq<Attempt<V, E>>)
    requires timeout >= 0.0
    requires forall i :: 0 <= i < |trace| ==>
      trace[i].duration == 0.0 && trace[i].outcome.Value? && until(trace[i].outcome.value) == Value(false)
    requires Sleeps(|trace|, interval) > timeout
    ensures var r := Poll(isInstance, until, Some(timeout), interval, trace);
      && r.calls >= 1 && r.ending == TimedOut(0)
      && Sleeps(r.calls, interval) > timeout
      && Sleeps(r.calls - 1, interval) <= timeout
  {
    var cfg := Config([], isInstance, until, None, Some(timeout), interval);
    var l := Loop(cfg, trace, 0, 0.0);
    assert l.calls >= 1 && l.ending == TimedOut(0)
      && Sleeps(l.calls, interval) > timeout && Sleeps(l.calls - 1, interval) <= timeout by {
      RejectedRunTimesOut(cfg, timeout, trace);
    }
    assert Poll(isInstance, until, Some(timeout), interval, trace) == l by {
      PollIsLoop(isInstance, until, Some(timeout), interval, trace);
    }
  }

  /** `PollTimeoutAttempts` stated of the loop itself. */
  lemma RejectedRunTimesOut<V, E, K>(cfg: Config<V, E, K>, timeout: real, trace: seq<Attempt<V, E>>)
    requires cfg.timeout == Some(timeout) && timeout >= 0.0
    requires forall i :: 0 <= i < |trace| ==>
      trace[i].duration == 0.0 && trace[i].outcome.Value? && cfg.until(trace[i].outcome.value) == Value(false)
    requires Sleeps(|trace|, cfg.interval) > timeout
    ensures var l := Loop(cfg, trace, 0, 0.0);
      && l.calls >= 1 && l.ending == TimedOut(0)
      && Sleeps(l.calls, cfg.interval) > timeout
      && Sleeps(l.calls - 1, cfg.interval) <= timeout
  {
    RejectedEnding(cfg, timeout, trace);
    RejectedDeadline(cfg, timeout, trace);
  }

  /** A poll is the loop with nothing to catch and no attempt limit. */
  lemma PollIsLoop<V, E, K>(
    isInstance: (E, K) -> bool, until: V -> Outcome<bool, E>,
    timeout: Option<real>, interval: real, trace: seq<Attempt<V, E>>)
    ensures Poll(isInstance, until, timeout, interval, trace) == Loop(Config([], isInstance, until, None, timeout, interval), trace, 0, 0.0)
  {
  }

  /** Instant attempts that `until` rejects: every retry sleeps, so the run
      ends in a timeout with no exceptions, once the clock has passed the
      deadline. */
  lemma RejectedEnding<V, E, K>(cfg: Config<V, E, K>, timeout: real, trace: seq<Attempt<V, E>>)
    requires cfg.timeout == Some(timeout)
    requires forall i :: 0 <= i < |trace| ==>
      trace[i].duration == 0.0 && trace[i].outcome.Value? && cfg.until(trace[i].outcome.value) == Value(false)
    requires Sleeps(|trace|, cfg.interval) > timeout >= 0.0
    ensures var r := Loop(cfg, trace, 0, 0.0);
      r.calls >= 1 && r.ending == TimedOut(0) && Sleeps(r.calls, cfg.interval) > timeout
  {
    var r := Loop(cfg, trace, 0, 0.0);
    var k := r.calls;
    assert trace != [];
    LoopEnding(cfg, trace, 0, 0.0);
    ElapsedOfInstantCalls(cfg.interval, trace[..k]);
    ValuesHaveNoErrors(trace[..k]);
    assert trace[k - 1].outcome.Value? && cfg.until(trace[k - 1].outcome.value) == Value(false);
    assert trace[..|trace|] == trace;
  }

  /** Under the same conditions, the clock after the last sleep but one had
      not passed the deadline. */
  lemma RejectedDeadline<V, E, K>(cfg: Config<V, E, K>, timeout: real, trace: seq<Attempt<V, E>>)
    requires cfg.timeout == Some(timeout) && timeout >= 0.0
    requires trace != [] && forall i :: 0 <= i < |trace| ==> trace[i].duration == 0.0
    ensures var r := Loop(cfg, trace, 0, 0.0);
      Sleeps(r.calls - 1, cfg.interval) <= timeout
  {
    var r := Loop(cfg, trace, 0, 0.0);
    var k := r.calls;
    if k >= 2 {
      LoopPrefix(cfg, trace, 0, 0.0);
      assert Continues(cfg, trace, 0, 0.0, k - 2);
      assert trace[..k - 1] == trace[..(k - 2) + 1];
      ElapsedOfInstantCalls(cfg.interval, trace[..k - 1]);
    }
  }
}

=== FILE: results.dfy ===
/** Small value types shared by the failure counter, the circuit breaker gate
    and the execution loop. */
module Results {

  /** A nullable value, as Python's `None` or a value. */
  datatype Option<+T> = None | Some(value: T)

  /** What one call of a user function produced: a normal return value or a
      raised exception object. */
  datatype Outcome<+V, +E> = Value(value: V) | Raise(error: E)
}

=== FILE: scenarios.dfy ===
/** The behaviours pinned down by the repository's tests, replayed on the
    model with a concrete exception hierarchy and a frozen clock. */
module Scenarios {
  import opened Results
  import Classifier
  import opened Engine
  import opened FailureWindow
  import opened FailureCounter
  import opened CircuitBreaker

  /** The exception classes the tests use. */
  datatype Kind = BaseException | Exception | ValueError | IndexError | TypeError

  /** Python's subclass relation on these classes. */
  predicate SubKind(k: Kind, of: Kind)
  {
    k == of || of == BaseException || (of == Exception && k != BaseException)
  }

  /** An exception object: its class and an identity. */
  datatype Exc = Exc(kind: Kind, id: nat)

  predicate IsInstance(e: Exc, k: Kind)
  {
    SubKind(e.kind, k)
  }

  const valueError1 := Exc(ValueError, 1)
  const valueError2 := Exc(ValueError, 2)
  const valueError3 := Exc(ValueError, 3)
  const indexError := Exc(IndexError, 4)
  const typeError := Exc(TypeError, 5)

  function Instant(o: Outcome<int, Exc>): Attempt<int, Exc>
  {
    Attempt(o, 0.0)
  }

  /** retry_tests.py: a function that raises `ValueError` twice and then
      returns 3 is called three times and returns 3; `on_error` saw indices
      0 and 1. */
  lemma RetryUntilExceptionGoesAway()
    ensures var r := Retry(Classifier.Single(ValueError), IsInstance, Some(3), 0.001,
      [Instant(Raise(valueError1)), Instant(Raise(valueError2)), Instant(Value(3))]);
      r == Run(Returned(3), [Notice(valueError1, 0), Notice(valueError2, 1)], 3)
  {
    var cfg := Config([ValueError], IsInstance, AlwaysSatisfied, Some(3), None, 0.001);
    var t := [Instant(Raise(valueError1)), Instant(Raise(valueError2)), Instant(Value(3))];
    assert t[1..][1..] == [Instant(Value(3))];
    assert Loop(cfg, t[1..][1..], 2, 0.002) == Run(Returned(3), [], 1);
    assert Loop(cfg, t[1..], 1, 0.001) == Run(Returned(3), [Notice(valueError2, 1)], 2);
    assert Loop(cfg, t, 0, 0.0) == Run(Returned(3), [Notice(valueError1, 0), Notice(valueError2, 1)], 3);
  }

  /** retry_tests.py: an always-failing function is called `times` = 3 times
      and the third exception object itself propagates. */
  lemma RetryTooManyTimes()
    ensures var r := Retry(Classifier.Single(ValueError), IsInstance, Some(3), 0.001,
      [Instant(Raise(valueError1)), Instant(Raise(valueError2)), Instant(Raise(valueError3)), Instant(Raise(valueError1))]);
      r.ending == Raised(valueError3) && r.calls == 3
  {
    var cfg := Config([ValueError], IsInstance, AlwaysSatisfied, Some(3), None, 0.001);
    var t := [Instant(Raise(valueError1)), Instant(Raise(valueError2)), Instant(Raise(valueError3)), Instant(Raise(valueError1))];
    assert t[1..][1..] == [Instant(Raise(valueError3)), Instant(Raise(valueError1))];
    assert Loop(cfg, t[1..][1..], 2, 0.002).ending == Raised(valueError3);
    assert Loop(cfg, t[1..][1..], 2, 0.002).calls == 1;
    assert Loop(cfg, t[1..], 1, 0.001).calls == 2;
  }

  /** retry_tests.py: an exception of a class not listed propagates after one
      call, and `on_error` still saw it. */
  lemma RetryUnexpectedException()
    ensures var r := Retry(Classifier.Several([ValueError, IndexError]), IsInstance, Some(3), 0.001,
      [Instant(Raise(typeError)), Instant(Value(2))]);
      r == Run(Raised(typeError), [Notice(typeError, 0)], 1)
  {
  }

  /** retry_tests.py: with an iterable of classes, each listed class is
      retried. */
  lemma RetrySeveralClasses()
    ensures var r := Retry(Classifier.Several([ValueError, IndexError]), IsInstance, Some(3), 0.001,
      [Instant(Raise(valueError1)), Instant(Raise(indexError)), Instant(Value(3))]);
      r.ending == Returned(3) && r.calls == 3
  {
    var cfg := Config([ValueError, IndexError], IsInstance, AlwaysSatisfied, Some(3), None, 0.001);
    var t := [Instant(Raise(valueError1)), Instant(Raise(indexError)), Instant(Value(3))];
    assert t[1..][1..] == [Instant(Value(3))];
    assert Loop(cfg, t[1..][1..], 2, 0.002) == Run(Returned(3), [], 1);
    assert Loop(cfg, t[1..], 1, 0.001).calls == 2;
  }

  /** poll_tests.py: `until` is true on the third result. */
  lemma PollTrueAfterAFewTries()
    ensures var r := Poll(IsInstance, (x: int) => Value(x == 3), Some(15.0), 0.001,
      [Instant(Value(1)), Instant(Value(2)), Instant(Value(3)), Instant(Value(4))]);
      r == Run(Returned(3), [], 3)
  {
  }

  /** poll_tests.py, condition not true in time: `f` returns 1, 2, 3, ...
      and `until` is `x == 3`.  With calls that take no time, two sleeps of
      0.0045 stay within the 0.01 timeout and the third result is returned. */
  lemma PollNotTrueInTimeReturnsThird()
    ensures var r := Poll(IsInstance, (x: int) => Value(x == 3), Some(0.01), 0.0045,
      [Instant(Value(1)), Instant(Value(2)), Instant(Value(3)), Instant(Value(4))]);
      r == Run(Returned(3), [], 3)
  {
  }

  /** Whatever the calls cost on the clock, a poll of 1, 2, 3, ... for
      `x == 3` that times out has made fewer than three calls: a third call
      and a `TimeoutError` never come together. */
  lemma PollTimeoutBeforeThirdCall(timeout: real, interval: real, trace: seq<Attempt<int, Exc>>)
    requires forall i :: 0 <= i < |trace| ==> trace[i].outcome == Value(i + 1)
    ensures var r := Poll(IsInstance, (x: int) => Value(x == 3), Some(timeout), interval, trace);
      r.ending.TimedOut? ==> r.calls < 3
  {
    if |trace| >= 3 {
      assert trace[2].outcome == Value(3);
    }
  }

  /** poll_tests.py: an exception of the polled function propagates at once. */
  lemma PollFunctionRaises()
    ensures var r := Poll(IsInstance, (x: int) => Value(x == 1), Some(15.0), 0.001,
      [Instant(Raise(Exc(Exception, 6))), Instant(Value(1))]);
      r.ending == Raised(Exc(Exception, 6)) && r.calls == 1
  {
  }

  /** poll_tests.py: an exception of `until` propagates, and it is not
      reported to `on_error`. */
  lemma PollConditionRaises()
    ensures var r := Poll(IsInstance, (x: int) => Raise(Exc(Exception, 7)), Some(15.0), 0.001,
      [Instant(Value(0)), Instant(Value(1))]);
      r == Run(Raised(Exc(Exception, 7)), [], 1)
  {
  }

  /** A breaker as the circuit breaker tests build it. */
  function TestBreaker(): Breaker<Exc, Kind>
  {
    Decorate(Classifier.Single(ValueError), IsInstance, 3, 1.0)
  }

  function Fail(at: real): Request<int, Exc>
  {
    Request(Raise(valueError1), at)
  }

  /** The test breaker with the given window and broken time. */
  function With(failures: seq<real>, brokenTime: Option<real>): Breaker<Exc, Kind>
  {
    TestBreaker().(counter := Counter(3, 1.0, failures, brokenTime))
  }

  const raised: Response<int, Exc> := Reraised(valueError1)

  /** One more request on a replay whose outcome is already known. */
  lemma Step(
    reqs: seq<Request<int, Exc>>, req: Request<int, Exc>, before: Breaker<Exc, Kind>, rs: seq<Response<int, Exc>>,
    c: Counter, response: Response<int, Exc>)
    requires Replay(TestBreaker(), reqs) == (before, rs)
    requires Wrapper(before, req.outcome, req.at, req.at).counter == c
    requires Wrapper(before, req.outcome, req.at, req.at).response == response
    ensures Replay(TestBreaker(), reqs + [req]) == (before.(counter := c), rs + [response])
  {
    ReplayAppend(TestBreaker(), reqs, req);
  }

  /** A first failure at time 0 is re-raised and recorded. */
  lemma OneFailure()
    ensures Replay(TestBreaker(), [Fail(0.0)]) == (With([0.0], None), [raised])
  {
    var none: seq<Request<int, Exc>> := [];
    var rs: seq<Response<int, Exc>> := [];
    assert Classifier.Matches(IsInstance, valueError1, [ValueError]);
    assert Wrapper(TestBreaker(), Fail(0.0).outcome, 0.0, 0.0).counter == Counter(3, 1.0, [0.0], None);
    Step(none, Fail(0.0), TestBreaker(), rs, Counter(3, 1.0, [0.0], None), raised);
    assert none + [Fail(0.0)] == [Fail(0.0)];
    assert rs + [raised] == [raised];
  }

  /** A second failure at time 0 is recorded without breaking the circuit. */
  lemma TwoFailures()
    ensures Replay(TestBreaker(), [Fail(0.0), Fail(0.0)]) == (With([0.0, 0.0], None), [raised, raised])
  {
    var f0 := Fail(0.0);
    assert Classifier.Matches(IsInstance, valueError1, [ValueError]);
    OneFailure();
    assert Wrapper(With([0.0], None), f0.outcome, 0.0, 0.0).counter == Counter(3, 1.0, [0.0, 0.0], None);
    assert [f0] + [f0] == [f0, f0];
    assert [raised] + [raised] == [raised, raised];
    Step([f0], f0, With([0.0], None), [raised], Counter(3, 1.0, [0.0, 0.0], None), raised);
  }

  /** circuit_breaker_tests.py: three failures at time 0 are all re-raised
      and break the circuit at time 0. */
  lemma ThreeFailuresBreak()
    ensures Replay(TestBreaker(), [Fail(0.0), Fail(0.0), Fail(0.0)])
      == (With([0.0, 0.0, 0.0], Some(0.0)), [raised, raised, raised])
  {
    var f0 := Fail(0.0);
    var c := Counter(3, 1.0, [0.0, 0.0, 0.0], Some(0.0));
    assert Classifier.Matches(IsInstance, valueError1, [ValueError]);
    TwoFailures();
    assert Wrapper(With([0.0, 0.0], None), f0.outcome, 0.0, 0.0).counter == c;
    assert [f0, f0] + [f0] == [f0, f0, f0];
    assert [raised, raised] + [raised] == [raised, raised, raised];
    Step([f0, f0], f0, With([0.0, 0.0], None), [raised, raised], c, raised);
  }

  /** circuit_breaker_tests.py: after three failures at time 0, a call at
      0.5 is refused without invoking the function, with 0.5 seconds
      remaining. */
  lemma BrokenCircuitRefuses()
    ensures var after := Replay(TestBreaker(), [Fail(0.0), Fail(0.0), Fail(0.0)]);
      var call := Wrapper(after.0, Fail(0.5).outcome, 0.5, 0.5);
      after.1 == [raised, raised, raised] && call.response == CircuitBroken(0.5) && !call.invoked
  {
    var c := Counter(3, 1.0, [0.0, 0.0, 0.0], Some(0.0));
    ThreeFailuresBreak();
    assert TimeRemaining(c, 0.5) == 0.5;
  }


  /** A success at time 0 after two failures leaves the window as it was. */
  lemma TwoFailuresThenSuccess()
    ensures Replay(TestBreaker(), [Fail(0.0), Fail(0.0), Request(Value(3), 0.0)])
      == (With([0.0, 0.0], None), [raised, raised, Passed(3)])
  {
    var f0, s3 := Fail(0.0), Request(Value(3), 0.0);
    var c := Counter(3, 1.0, [0.0, 0.0], None);
    TwoFailures();
    assert StateAt(c, 0.0) == Ok;
    EvictNothingRecent([0.0, 0.0], 0.0 - 1.0);
    assert AddSuccess(c, 0.0) == c;
    assert [f0, f0] + [s3] == [f0, f0, s3];
    assert [raised, raised] + [Passed(3)] == [raised, raised, Passed(3)];
    Step([f0, f0], s3, With([0.0, 0.0], None), [raised, raised], c, Passed(3));
  }

  /** circuit_breaker_tests.py: two failures and a success at 0 leave the
      circuit closed, and a call at 1.1 goes through. */
  lemma SuccessKeepsCircuitClosed()
    ensures var after := Replay(TestBreaker(), [Fail(0.0), Fail(0.0), Request(Value(3), 0.0)]);
      var call := Wrapper(after.0, Value(4), 1.1, 1.1);
      after.1 == [raised, raised, Passed(3)] && call.response == Passed(4)
  {
    TwoFailuresThenSuccess();
    assert StateAt(Counter(3, 1.0, [0.0, 0.0], None), 1.1) == Ok;
  }


  /** Leaky bucket, second failure at 0.5: both failures are still recent. */
  lemma LeakTwo()
    ensures Replay(TestBreaker(), [Fail(0.0), Fail(0.5)]) == (With([0.0, 0.5], None), [raised, raised])
  {
    var f0, f5 := Fail(0.0), Fail(0.5);
    var c := Counter(3, 1.0, [0.0, 0.5], None);
    assert Classifier.Matches(IsInstance, valueError1, [ValueError]);
    OneFailure();
    assert Wrapper(With([0.0], None), f5.outcome, 0.5, 0.5).counter == c;
    assert [f0] + [f5] == [f0, f5];
    assert [raised] + [raised] == [raised, raised];
    Step([f0], f5, With([0.0], None), [raised], c, raised);
  }

  /** Leaky bucket, failure at 1.1: the failure at 0 has leaked out. */
  lemma LeakThree()
    ensures Replay(TestBreaker(), [Fail(0.0), Fail(0.5), Fail(1.1)])
      == (With([0.5, 1.1], None), [raised, raised, raised])
  {
    var f0, f5, f11 := Fail(0.0), Fail(0.5), Fail(1.1);
    var c := Counter(3, 1.0, [0.5, 1.1], None);
    assert Classifier.Matches(IsInstance, valueError1, [ValueError]);
    LeakTwo();
    assert Evict([0.0, 0.5], 1.1 - 1.0) == [0.5];
    assert Wrapper(With([0.0, 0.5], None), f11.outcome, 1.1, 1.1).counter == c;
    assert [f0, f5] + [f11] == [f0, f5, f11];
    assert [raised, raised] + [raised] == [raised, raised, raised];
    Step([f0, f5], f11, With([0.0, 0.5], None), [raised, raised], c, raised);
  }

  /** Leaky bucket, second failure at 1.1: three recent failures break the
      circuit. */
  lemma LeakFour()
    ensures Replay(TestBreaker(), [Fail(0.0), Fail(0.5), Fail(1.1), Fail(1.1)])
      == (With([0.5, 1.1, 1.1], Some(1.1)), [raised, raised, raised, raised])
  {
    var f0, f5, f11 := Fail(0.0), Fail(0.5), Fail(1.1);
    var c := Counter(3, 1.0, [0.5, 1.1, 1.1], Some(1.1));
    assert Classifier.Matches(IsInstance, valueError1, [ValueError]);
    LeakThree();
    assert Evict([0.5, 1.1], 1.1 - 1.0) == [0.5, 1.1];
    assert Wrapper(With([0.5, 1.1], None), f11.outcome, 1.1, 1.1).counter == c;
    assert [f0, f5, f11] + [f11] == [f0, f5, f11, f11];
    assert [raised, raised, raised] + [raised] == [raised, raised, raised, raised];
    Step([f0, f5, f11], f11, With([0.5, 1.1], None), [raised, raised, raised], c, raised);
  }

  /** circuit_breaker_tests.py, leaky bucket: failures at 0 and 0.5, then
      two at 1.1 — the one at 0 has leaked out, so only the second failure
      at 1.1 breaks the circuit, and the next call at 1.1 is refused with
      the full second remaining. */
  lemma LeakyBucket()
    ensures var after := Replay(TestBreaker(), [Fail(0.0), Fail(0.5), Fail(1.1), Fail(1.1)]);
      var call := Wrapper(after.0, Fail(1.1).outcome, 1.1, 1.1);
      after.1 == [raised, raised, raised, raised] && call.response == CircuitBroken(1.0) && !call.invoked
  {
    LeakFour();
    assert TimeRemaining(Counter(3, 1.0, [0.5, 1.1, 1.1], Some(1.1)), 1.1) == 1.0;
  }


  /** The probe at 1.1 after three failures at 0 finds the circuit
      half-broken; its failure re-opens the circuit at 1.1. */
  lemma ProbeReopens()
    ensures Replay(TestBreaker(), [Fail(0.0), Fail(0.0), Fail(0.0), Fail(1.1)])
      == (With([1.1], Some(1.1)), [raised, raised, raised, raised])
  {
    var f0, f11 := Fail(0.0), Fail(1.1);
    var c := Counter(3, 1.0, [1.1], Some(1.1));
    assert Classifier.Matches(IsInstance, valueError1, [ValueError]);
    ThreeFailuresBreak();
    assert IsHalfBroken(Counter(3, 1.0, [0.0, 0.0, 0.0], Some(0.0)), 1.1);
    assert Evict([0.0, 0.0, 0.0], 1.1 - 1.0) == [];
    assert Wrapper(With([0.0, 0.0, 0.0], Some(0.0)), f11.outcome, 1.1, 1.1).counter == c;
    assert [f0, f0, f0] + [f11] == [f0, f0, f0, f11];
    assert [raised, raised, raised] + [raised] == [raised, raised, raised, raised];
    Step([f0, f0, f0], f11, With([0.0, 0.0, 0.0], Some(0.0)), [raised, raised, raised], c, raised);
  }

  /** circuit_breaker_tests.py: after three failures at 0, the probe at 1.1
      is invoked and fails, which re-opens the circuit; the next call at 1.1
      is refused. */
  lemma HalfBrokenProbeFails()
    ensures var after := Replay(TestBreaker(), [Fail(0.0), Fail(0.0), Fail(0.0), Fail(1.1)]);
      var call := Wrapper(after.0, Fail(1.1).outcome, 1.1, 1.1);
      after.1 == [raised, raised, raised, raised] && call.response == CircuitBroken(1.0) && !call.invoked
  {
    ProbeReopens();
    assert TimeRemaining(Counter(3, 1.0, [1.1], Some(1.1)), 1.1) == 1.0;
  }

}

=== FILE: window.dfy ===
/** The leaky-bucket window of failure timestamps kept by the failure
    counter: a deque, oldest first, from which stale entries are popped at
    the front. */
module FailureWindow {

  /** Timestamps in non-decreasing order, as appended by a monotonic clock. */
  ghost predicate Sorted(w: seq<real>)
  {
    forall i, j :: 0 <= i < j < |w| ==> w[i] <= w[j]
  }

  /** Pops timestamps off the front of the window while the front one is
      older than `cutoff` (`now - timeout` in the counter).  Everything
      popped was stale and the first survivor (if any) is not; the result is
      a suffix of `w` (`EvictIsSuffix`). */
  function Evict(w: seq<real>, cutoff: real): (r: seq<real>)
    ensures |r| <= |w|
    ensures forall i :: 0 <= i < |w| - |r| ==> w[i] < cutoff
    ensures r == [] || r[0] >= cutoff
    decreases |w|
  {
    if |w| > 0 && w[0] < cutoff then Evict(w[1..], cutoff) else w
  }

  /** Eviction only removes a prefix: what is left is the window's last
      entries, unchanged and in the same order. */
  lemma {:induction false} EvictIsSuffix(w: seq<real>, cutoff: real)
    ensures Evict(w, cutoff) == w[|w| - |Evict(w, cutoff)|..]
    decreases |w|
  {
    if |w| > 0 && w[0] < cutoff {
      EvictIsSuffix(w[1..], cutoff);
      assert w[1..][|w| - 1 - |Evict(w, cutoff)|..] == w[|w| - |Evict(w, cutoff)|..];
    }
  }

  /** A window whose entries are all stale is emptied. */
  lemma {:induction false} EvictAllStale(w: seq<real>, cutoff: real)
    requires forall i :: 0 <= i < |w| ==> w[i] < cutoff
    ensures Evict(w, cutoff) == []
    decreases |w|
  {
    if |w| > 0 {
      EvictAllStale(w[1..], cutoff);
    }
  }

  /** A window whose oldest entry is recent is left as it is. */
  lemma EvictNothingRecent(w: seq<real>, cutoff: real)
    requires w == [] || w[0] >= cutoff
    ensures Evict(w, cutoff) == w
  {
  }

  /** Reference definition: the entries of `w` that are not stale, in order. */
  function Recent(w: seq<real>, cutoff: real): (r: seq<real>)
    ensures forall x :: x in r <==> x in w && x >= cutoff
    ensures |r| <= |w|
    decreases |w|
  {
    if |w| == 0 then []
    else if w[0] >= cutoff then [w[0]] + Recent(w[1..], cutoff)
    else Recent(w[1..], cutoff)
  }

  /** On a sorted window, popping stale entries from the front removes
      exactly the stale entries: every survivor is recent and every recent
      entry survives. */
  lemma {:induction false} EvictSortedIsRecent(w: seq<real>, cutoff: real)
    requires Sorted(w)
    ensures Evict(w, cutoff) == Recent(w, cutoff)
    ensures forall x :: x in Evict(w, cutoff) ==> x >= cutoff
    decreases |w|
  {
    if |w| == 0 {
    } else if w[0] < cutoff {
      EvictSortedIsRecent(w[1..], cutoff);
      assert Recent(w, cutoff) == Recent(w[1..], cutoff);
    } else {
      RecentOfAllRecent(w, cutoff);
    }
  }

  /** A sorted window whose oldest entry is recent is entirely recent. */
  lemma {:induction false} RecentOfAllRecent(w: seq<real>, cutoff: real)
    requires Sorted(w)
    requires w != [] && w[0] >= cutoff
    ensures Recent(w, cutoff) == w
    decreases |w|
  {
    if |w| > 1 {
      RecentOfAllRecent(w[1..], cutoff);
    }
  }

  /** Any suffix of a sorted window is sorted. */
  lemma SuffixSorted(w: seq<real>, k: nat)
    requires Sorted(w) && k <= |w|
    ensures Sorted(w[k..])
  {
    var r := w[k..];
    forall i, j | 0 <= i < j < |r| ensures r[i] <= r[j] {
      assert r[i] == w[k + i] && r[j] == w[k + j];
    }
  }

  /** Eviction keeps a sorted window sorted and leaves only recent entries
      that were already there. */
  lemma EvictSorted(w: seq<real>, cutoff: real)
    requires Sorted(w)
    ensures Sorted(Evict(w, cutoff))
    ensures forall x :: x in Evict(w, cutoff) ==> x in w && x >= cutoff
  {
    var r := Evict(w, cutoff);
    var k := |w| - |r|;
    EvictIsSuffix(w, cutoff);
    SuffixSorted(w, k);
    assert r == w[k..];
    forall x | x in r ensures x in w && x >= cutoff {
      var i :| 0 <= i < |r| && r[i] == x;
      assert r[0] <= r[i];
      assert w[k + i] == x;
    }
  }

  /** Appending a timestamp no earlier than any entry keeps a window sorted. */
  lemma SortedAppend(w: seq<real>, x: real)
    requires Sorted(w)
    requires forall y :: y in w ==> y <= x
    ensures Sorted(w + [x])
  {
    var r := w + [x];
    forall i, j | 0 <= i < j < |r| ensures r[i] <= r[j] {
      assert r[i] == w[i];
      if j < |w| {
        assert r[j] == w[j];
      } else {
        assert w[i] in w;
      }
    }
  }

  /** Eviction at a fixed cutoff is idempotent. */
  lemma EvictIdempotent(w: seq<real>, cutoff: real)
    ensures Evict(Evict(w, cutoff), cutoff) == Evict(w, cutoff)
  {
  }

  /** Evicting at an earlier cutoff and then at a later one is the same as
      evicting once at the later one. */
  lemma {:induction false} EvictLaterCutoff(w: seq<real>, early: real, late: real)
    requires early <= late
    ensures Evict(Evict(w, early), late) == Evict(w, late)
    decreases |w|
  {
    if |w| > 0 && w[0] < early {
      EvictLaterCutoff(w[1..], early, late);
    }
  }

  /** The `while` loop of `_update_failures`: pop the front entry while it
      is older than the cutoff. */
  method PopStale(w: seq<real>, cutoff: real) returns (r: seq<real>)
    ensures r == Evict(w, cutoff)
    ensures r == [] || r[0] >= cutoff
  {
    var k := 0;
    while k < |w| && w[k] < cutoff
      invariant 0 <= k <= |w|
      invariant Evict(w[k..], cutoff) == Evict(w, cutoff)
    {
      assert w[k..][1..] == w[k + 1..];
      assert Evict(w[k..], cutoff) == Evict(w[k + 1..], cutoff);
      k := k + 1;
    }
    assert Evict(w[k..], cutoff) == w[k..];
    r := w[k..];
  }
}
